=== FILE: README.md ===
# OpsBot incident pipeline — a Dafny model

This project models the core of OpsBot, a Python DevOps agent. On every
scheduled tick the agent does the following:

- it reads four metrics from Prometheus (CPU, memory, disk, network) and
  turns each threshold breach into an alert;
- for every alert it asks a language-model provider for a diagnosis;
- when the diagnosis clears a safety gate it runs remediation primitives:
  container restarts, a high-CPU process kill sweep, or a disk cleanup;
- it sends a notification to Slack, a webhook and an append-only incident
  log;
- after a successful remediation it waits 30 seconds, re-checks the metric
  and reports whether the alert is resolved.

Every collaborator is a parameter: Prometheus, the model backends, Docker,
`ps`, `kill`, the cleanup commands, Slack, the webhook endpoint and the log
file. The model fixes what each call comes to (a value, or a Python
exception), and every operation is a pure function of those answers.
Handling one alert yields an ordered trace of events. Those events are the
analysis, the remediation, the notification, an abort on an escaping
exception, the stabilisation wait, and the verification.

Modules, one per source file:

| module | file | models |
|---|---|---|
| `Common` | common.dfy | Option, Result for exceptions, JSON values with Python truthiness, `str.lower` / `strip` / `split` / `join`, slicing |
| `Monitor` | monitor.dfy | `SystemMonitor`: readings, thresholds, `check_anomalies` |
| `LlmProvider` | llm_provider.dfy | `LLMProvider`: name and model choice, prompt, dispatch, fallback verdict |
| `Analyzer` | analyzer.dfy | `LogAnalyzer.__init__` keyword binding, `analyze_incident` |
| `Remediation` | remediation.dfy | `RemediationEngine`: the four primitives and `execute_remediation` |
| `Notifier` | notifier.dfy | `NotificationManager`: message sections, channels, incident log |
| `OpsBot` | opsbot_agent.dfy | `OpsBotAgent`: `load_config`, construction, `handle_alert`, `verify_remediation`, `monitor_system`, `stop_monitoring` |

Behaviours of the code that the model keeps as they are:

- **Container listing.** An exception from `containers.list()` during CPU
  or memory remediation is not recovered. It escapes `execute_remediation`
  and ends `handle_alert` before any notification is sent
  (`Remediation.ExecuteRemediation`, `OpsBot.NotifiedOnceAfterRemediation`).
  A non-API exception from Slack also ends the alert, right after the
  notification attempt.
- **Network alerts.** NETWORK alerts run no primitive. The result has no
  steps and success false, so the notification reports a failed
  remediation and asks for a human.
- **Container order.** CPU restarts the first three containers in the order
  Docker lists them; memory restarts the first two.
- **Unreachable re-check.** A re-check whose metric query fails reads 0.0,
  so the alert is reported resolved
  (`OpsBot.UnreachableRecheckReportsResolved`).
- **Notification timing.** There is one notification per alert, sent before
  verification. The verification verdict goes out as a separate Slack
  message and is not written to the incident log.
- **Thresholds and protected names.** Metric thresholds (80, 85, 90,
  1000000) and protected process names are constants. The configuration's
  threshold keys are never read (`OpsBot.ConfiguredThresholdsIgnored`).
- **No lock.** Alerts are handled one after another within a tick, with no
  lock around remediation.

## Model

| member | source | states |
|---|---|---|
| Monitor.FirstSample | DevOpsAgent/agent/monitor.py:19-41 | CPU and memory usage are the first series' sample, and 0.0 when the query raised or returned nothing |
| Monitor.MaxOf | DevOpsAgent/agent/monitor.py:49 | the maximum is one of the samples and no sample exceeds it |
| Monitor.DiskUsage | DevOpsAgent/agent/monitor.py:43-53 | disk usage is the fullest filesystem's sample (a member and an upper bound), 0.0 when unreachable |
| Monitor.NetworkUsage | DevOpsAgent/agent/monitor.py:55-65 | network usage is the sum over interfaces, 0.0 when unreachable |
| Monitor.SumOfAppend | DevOpsAgent/agent/monitor.py:61 | the summed rate is additive over any split of the interface list |
| Monitor.SumOfBounds | DevOpsAgent/agent/monitor.py:61 | with non-negative rates the total is non-negative and at least every single interface's rate |
| Monitor.FourBreaches | DevOpsAgent/agent/monitor.py:78-112 | the four checks together report a class iff its reading is strictly above its threshold, every report faithful to its reading |
| Monitor.Breach | DevOpsAgent/agent/monitor.py:78-112 | a class yields an alert exactly when its reading is strictly above its threshold, and at most one |
| Monitor.CheckAnomalies | DevOpsAgent/agent/monitor.py:67-114 | at most four alerts, in the order CPU, memory, disk, network; a class has an alert iff its reading is strictly above its threshold; each alert carries its reading, threshold, the shared time and its severity rule |
| Monitor.SeverityRules | DevOpsAgent/agent/monitor.py:78-112 | CPU is HIGH iff above 90 and memory iff above 95 (else MEDIUM); disk is always HIGH; network is always MEDIUM |
| Monitor.UnreachableMetricIsSilent | DevOpsAgent/agent/monitor.py:19-65 | a metric whose query failed or returned nothing never raises an alert |
| LlmProvider.NewProvider | DevOpsAgent/agent/llm_provider.py:8-21 | the name is lower-cased; the model is the explicit one when non-empty, else the provider's default, else llama2 |
| LlmProvider.ProviderNameCaseInsensitive | DevOpsAgent/agent/llm_provider.py:9 | every spelling of a provider name configures the same provider as its lower-case spelling |
| LlmProvider.PromptSeesOnlyLogPrefix | DevOpsAgent/agent/llm_provider.py:43-65 | logs agreeing in their first 4000 characters give the same prompt, whose length is bounded independently of the logs; the prompt contains the alert type and those first 4000 characters |
| LlmProvider.Fallback | DevOpsAgent/agent/llm_provider.py:167-179 | the fallback verdict has confidence LOW, demands a human, names the alert type in its root cause, and carries one evidence item and three actions |
| LlmProvider.AnalyzeLogs | DevOpsAgent/agent/llm_provider.py:23-41 | a backend is called iff the provider is ollama, or a keyed provider with a truthy key; the call carries the provider, model and prompt; the reply is returned; no call, or a raising call, gives the fallback |
| LlmProvider.UnknownProviderFallsBack | DevOpsAgent/agent/llm_provider.py:28-37 | an unknown provider name never contacts a backend and always yields the fallback |
| Analyzer.NewLogAnalyzer | DevOpsAgent/agent/analyzer.py:9-10 | construction succeeds iff every keyword is one of llm_provider, api_key, model, the provider is a string and the model is a string or falsy; the key is passed through; the default provider is ollama; a truthy model is used as given, a falsy one gives way to the provider's default |
| Analyzer.AnalyzeIncident | DevOpsAgent/agent/analyzer.py:65-93 | the verdict is the provider's verdict for the alert's type with the alert attached |
| Remediation.RestartContainer | DevOpsAgent/agent/remediation.py:19-52 | a restart succeeds iff a Docker client exists and the reloaded status is "running"; every failure is a result, never an exception |
| Remediation.RestartSystemService | DevOpsAgent/agent/remediation.py:54-93 | a service restart succeeds iff `is-active` printed "active" up to surrounding whitespace |
| Remediation.ServiceStatusReading | DevOpsAgent/agent/remediation.py:77 | "active\n" counts as active and "inactive\n" does not |
| Remediation.ParseLine | DevOpsAgent/agent/remediation.py:107-110 | a listing line parses iff it has a space; it is then exactly pid, a space, name, with no space in the pid |
| Remediation.Candidates | DevOpsAgent/agent/remediation.py:106-114 | the kill candidates are the parsed lines whose names are not protected, all of them, in listing order: a subsequence of the parsed processes as long as the unprotected ones are many |
| Remediation.KillEach | DevOpsAgent/agent/remediation.py:116-121 | kills are sent in candidate order, to every candidate when none raises and otherwise up to and including the first raising one: the last kill sent raised and every earlier one did not |
| Remediation.SweepExtends | DevOpsAgent/agent/remediation.py:116-121 | when the first kill does not raise, the sweep of the remaining candidates extends to the sweep of all of them |
| Remediation.KillEachRecordsAccepted | DevOpsAgent/agent/remediation.py:116-121 | the kills recorded are exactly the accepted ones among those sent, in sending order, one record per accepted kill; refused kills are skipped |
| Remediation.KillEachCountsAccepted | DevOpsAgent/agent/remediation.py:116-121 | as many kills are recorded as kills sent were accepted |
| Remediation.KillHighCpuProcesses | DevOpsAgent/agent/remediation.py:95-133 | no protected process is signalled; success iff the listing is non-blank and no kill raised; on success every candidate was signalled and the killed list is exactly the accepted kills in order, one entry per accepted kill; a failure reports no kills |
| Remediation.ProtectedNeverSignalled | DevOpsAgent/agent/remediation.py:112-114 | a process whose name contains systemd, kernel or init is never sent a kill, whatever the listing and kill outcomes |
| Remediation.ProtectionIgnoresCase | DevOpsAgent/agent/remediation.py:113 | lower-casing a name does not change whether it is protected |
| Remediation.RunCommands | DevOpsAgent/agent/remediation.py:158-163 | the command loop completes iff no command raised; the report lists exactly the commands that exited 0, in command order (a subsequence of the report lines, one per command that exited 0) |
| Remediation.ClearDiskSpace | DevOpsAgent/agent/remediation.py:135-175 | the cleanup succeeds iff no command raised an unexpected exception; the Docker note appears iff a client exists and pruning worked, and comes first; the command report lines follow in command order; every other report line is a command that exited 0 |
| Remediation.NoteIsNoReportLine | DevOpsAgent/agent/remediation.py:146-161 | the Docker note never coincides with a command's report line |
| Remediation.DiskCleanupSucceedsWhenNothingRan | DevOpsAgent/agent/remediation.py:135-171 | the cleanup reports success even when every sub-operation failed, with nothing listed as done |
| Remediation.RestartFirst | DevOpsAgent/agent/remediation.py:194-198 | with Docker, listing raising is an exception; otherwise there is one result per listed container up to `cap`, the i-th being the restart of the i-th listed container; without Docker nothing is restarted |
| Remediation.ExecuteRemediation | DevOpsAgent/agent/remediation.py:177-221 | the gate refuses whenever a human is needed; otherwise CPU restarts the first 3 containers and then sweeps, memory restarts the first 2, disk cleans up, and other classes run nothing; the only exception is the container listing |
| Remediation.GateDeniesByDefault | DevOpsAgent/agent/remediation.py:179-188 | a verdict missing the human flag or the confidence, or with LOW confidence, is refused and not successful |
| Remediation.SuccessIsSomeStep | DevOpsAgent/agent/remediation.py:218 | overall success iff some sub-result succeeded; an empty run is a failure |
| Remediation.MemoryNeverKills | DevOpsAgent/agent/remediation.py:204-210 | memory remediation only ever restarts containers |
| Remediation.CpuKillSweepAlwaysLast | DevOpsAgent/agent/remediation.py:192-202 | CPU remediation ends with exactly one kill sweep, after at most three restarts |
| Notifier.SeverityEmojiRules | DevOpsAgent/agent/notifier.py:28-36 | HIGH, MEDIUM and LOW have distinct markers; any other severity, or none, gets MEDIUM's |
| Notifier.CompletedMessages | DevOpsAgent/agent/notifier.py:72-74 | the completion list holds exactly the messages of the successful sub-results, one per successful sub-result, as a subsequence of all the messages |
| Notifier.CompletedMessagesAppend | DevOpsAgent/agent/notifier.py:72-74 | the completion list of a concatenation is the lists of its parts one after the other, so the messages keep the order of the sub-results |
| Notifier.FormatAlertMessage | DevOpsAgent/agent/notifier.py:23-93 | the headline comes first and the links last; the root cause section follows the headline when an analysis is given; the remediation section comes just before the links when a result is given |
| Notifier.MessageSections | DevOpsAgent/agent/notifier.py:50-81 | a root cause section iff an analysis is given; a remediation section iff a result is given; a request for a human iff that result is a failure; on success the details read "Remediation completed" and list the completed steps |
| Notifier.RefusalRequestsHuman | DevOpsAgent/agent/notifier.py:63-81 | a refused remediation is shown as a failure that asks for a human |
| Notifier.EvidenceShownIsPrefix | DevOpsAgent/agent/notifier.py:59 | the message shows the first min(3, n) evidence items |
| Notifier.NewNotifier | DevOpsAgent/agent/notifier.py:10-18 | a Slack client exists iff the token is truthy; the channel defaults to #alerts |
| Notifier.SendSlack | DevOpsAgent/agent/notifier.py:95-115 | false without a client or on an API error, true once posted; any other exception escapes |
| Notifier.SendWebhook | DevOpsAgent/agent/notifier.py:117-148 | true iff a URL is configured and the endpoint answered 200; never raises |
| Notifier.LogIncident | DevOpsAgent/agent/notifier.py:150-168 | earlier log lines are kept; the log grows by exactly this incident iff the file is writable, and the result says so |
| Notifier.LogIncidentAppends | DevOpsAgent/agent/notifier.py:150-168 | logging appends the same line to any log as to the empty log |
| Notifier.SendNotification | DevOpsAgent/agent/notifier.py:170-198 | Slack is tried iff a client exists, and first; a Slack exception ends the call there; otherwise the webhook is tried iff configured and the log always comes last; each channel reports its own outcome; when the call completes, the channels tried are exactly Slack if there is a client, then the webhook if a URL is set, then the log file |
| Notifier.NotificationIgnoresLog | DevOpsAgent/agent/notifier.py:170-198 | what a notification sends and reports does not depend on the log's earlier contents |
| OpsBot.LoadConfig | DevOpsAgent/agent/opsbot_agent.py:42-72 | a parsed file is used as is; a missing file gives the default configuration when it can be written; any error gives the empty configuration |
| OpsBot.NewAgentAsWritten | DevOpsAgent/agent/opsbot_agent.py:16-27 | construction as written succeeds exactly when the analyser accepts the `openai_api_key` keyword, so whether the agent starts depends on that keyword alone and on no configuration value |
| OpsBot.AgentAsWrittenNeverStarts | DevOpsAgent/agent/opsbot_agent.py:25-27 | as written, constructing the agent fails for every configuration |
| OpsBot.NewAgent | DevOpsAgent/agent/opsbot_agent.py:16-38 | with the key passed as api_key: monitoring is on, the analyser is ollama/llama2 with the configured key, auto-remediation follows the configuration, and the notifier gets the Slack and webhook settings |
| OpsBot.AutoRemediationDefaultsOn | DevOpsAgent/agent/opsbot_agent.py:38 | auto-remediation is off iff a readable file sets auto_remediation to a false value |
| OpsBot.StopMonitoring | DevOpsAgent/agent/opsbot_agent.py:232-235 | monitoring is off and nothing else changes |
| OpsBot.StillAlerting | DevOpsAgent/agent/opsbot_agent.py:165-170 | the early-exit loop finds an alert of the class iff one is in the list |
| OpsBot.VerifyRemediation | DevOpsAgent/agent/opsbot_agent.py:154-183 | the re-check is about the alert's class; resolved iff no fresh alert of that class, iff the fresh reading is at most the threshold; the message is delivered iff a client posted it; nothing escapes |
| OpsBot.UnreachableRecheckReportsResolved | DevOpsAgent/agent/opsbot_agent.py:159-170 | a re-check whose metric is unreachable reports resolved |
| OpsBot.RemediationStep | DevOpsAgent/agent/opsbot_agent.py:126-134 | no remediation without auto-remediation; otherwise the engine's result, or its exception |
| OpsBot.Diagnosis | DevOpsAgent/agent/opsbot_agent.py:119-121 | the analysis carries the alert; a diagnosis that could not be obtained is the fallback verdict, which the gate refuses |
| OpsBot.Step | DevOpsAgent/agent/opsbot_agent.py:126-134 | a verdict needing a human yields a refusal when auto-remediation is on and no remediation otherwise |
| OpsBot.Notification | DevOpsAgent/agent/opsbot_agent.py:136-142 | the notification formats this alert with its analysis and remediation result; a notification that went out appends to the log this alert's record (alert, analysis, remediation result) when the log is writable, and nothing else |
| OpsBot.Recheck | DevOpsAgent/agent/opsbot_agent.py:145-149 | the re-check is about the alert's class and resolved iff the fresh reading is at most the threshold |
| OpsBot.TraceNotification | DevOpsAgent/agent/opsbot_agent.py:136-152 | the analysis is the only analysis event; at most one notification, present iff remediation did not raise, carrying what the notifier formatted and reported |
| OpsBot.TraceRemediation | DevOpsAgent/agent/opsbot_agent.py:126-142 | a remediation event iff the step produced a result, carrying it, right after the analysis and before the notification |
| OpsBot.TraceVerification | DevOpsAgent/agent/opsbot_agent.py:136-152 | the re-check iff a remediation succeeded and its notification went out; it is then last, after the 30 s wait, after the notification |
| OpsBot.HandleAlert | DevOpsAgent/agent/opsbot_agent.py:111-152 | the trace starts with the analysis of this alert, carrying the diagnosis's verdict and backend request; the incident log keeps its lines and gains at most one, and it changes only when the engine did not raise and the notification went out, to that notification's log |
| OpsBot.NotifiedOnceAfterRemediation | DevOpsAgent/agent/opsbot_agent.py:125-142 | one notification unless the engine raised, after the analysis and the remediation; a remediation iff auto-remediation is on and the engine did not raise; without auto-remediation, no remediation section |
| OpsBot.VerificationOnlyAfterSuccess | DevOpsAgent/agent/opsbot_agent.py:146-149 | for a whole alert: verification iff a successful remediation event and a notification that went out; it is last, after the wait and the notification |
| OpsBot.VerificationWhenSucceeded | DevOpsAgent/agent/opsbot_agent.py:146-149 | for a whole alert: a verification event iff a successful remediation event and a notification that went out |
| OpsBot.VerificationIsLast | DevOpsAgent/agent/opsbot_agent.py:146-149 | for a whole alert: a verification event is last, right after the wait, which is right after the notification |
| OpsBot.VerificationJudgesFreshReading | DevOpsAgent/agent/opsbot_agent.py:146-183 | for a whole alert: the verification is about the alert's own class and says resolved iff the fresh reading is at most the threshold |
| OpsBot.FallbackNeverRemediates | DevOpsAgent/agent/opsbot_agent.py:119-149 | when the diagnosis fell back, any remediation event is a refusal and nothing is verified |
| OpsBot.FallbackAsksForHuman | DevOpsAgent/agent/opsbot_agent.py:119-142 | when the diagnosis fell back and auto-remediation is on, the notification asks for a human |
| OpsBot.TraceIgnoresLog | DevOpsAgent/agent/opsbot_agent.py:136-149 | an alert's trace does not depend on the earlier incident log |
| OpsBot.HandleAlertWellBehaved | DevOpsAgent/agent/opsbot_agent.py:111-152 | handling an alert ignores the log's contents: the trace is the same for any log, and the lines it appends (at most one) are the same for any log |
| OpsBot.HandleAlertAppends | DevOpsAgent/agent/opsbot_agent.py:111-152 | an alert appends the same lines to any log as to the empty log |
| OpsBot.HandleAll | DevOpsAgent/agent/opsbot_agent.py:100-104 | every alert is handled, in order, with the trace it would have alone; the final log is the old log followed by the lines each alert adds on its own, in alert order, at most one per alert |
| OpsBot.MonitorSystem | DevOpsAgent/agent/opsbot_agent.py:86-109 | nothing while stopped; otherwise one incident per scanned alert, in scan order, each with its full trace; the log is the old log followed by the lines each scanned alert adds on its own, in scan order, at most four in all; the settings are unchanged |
| OpsBot.StoppedAgentIsIdle | DevOpsAgent/agent/opsbot_agent.py:86-89 | after stop_monitoring, a pass does nothing |
| OpsBot.PassHandlesScan | DevOpsAgent/agent/opsbot_agent.py:97-104 | a pass of a monitoring agent handles the scan's alerts, in scan order, whatever the agent's settings |
| OpsBot.ConfiguredThresholdsIgnored | DevOpsAgent/agent/opsbot_agent.py:21-23 | agents built from any two configuration files handle the same alerts on the same pass, those of the fixed-threshold scan, so configured thresholds change nothing |

## Left out

- Prometheus, Docker, subprocess, HTTP, SDK and file I/O: replaced by their outcomes as parameters (`Probe`, `LlmCall -> QueryOutcome`, `RemediationEnv`, `Delivery`, `ConfigFile`).
- Log collection in `analyze_incident` (journalctl, docker logs, ps): the collected text is an input. The journal and Docker readers give "" on a non-zero exit or an exception. The process reader gives whatever `ps` printed, whatever its exit status, and "" only on an exception.
- The awk threshold filter and `head -5` of the process listing: they run in the shell, so the listing's text is an input.
- Timestamps (`datetime.now()`), `time.sleep`, `schedule`, `start_monitoring`, `health_check`, `setup_logging`, `main` and logging: clocks, blocking and console output. The 30-second wait is recorded as an event.
- The discarded `get_system_metrics()` calls in `monitor_system` and `verify_remediation`: their value is never used.
- Rendered message text, emoji characters and the console copy of the notification: a message is its ordered sections.
- The remediation result's `timestamp`, `reason` and `action` keys, and the webhook/log payload layout: no decision reads them.
- The exact prompt wording: three fixed paraphrased pieces around the alert type and the first 4000 characters of the logs.
- Monitor.FirstSample: NaN and infinite samples are not modelled, since samples are reals. `float()` accepts "NaN" and "+Inf". A CPU or memory reading of NaN compares above no threshold, so it would never alert, and one of +Inf would alert at every threshold.
- Common.Lower, Common.Strip: Python's Unicode `lower()`/`strip()` are modelled on ASCII only. `Lower` maps A–Z. `Strip` removes the ASCII characters `str.strip()` removes: space, tab, line feed, vertical tab, form feed, carriage return and 0x1c–0x1f. Non-ASCII whitespace (0x85, 0xa0, the Unicode spaces) is kept.
- LlmProvider.AnalyzeLogs: a backend reply that parses to JSON other than an object is not modelled. With such a reply, attaching the alert would raise and end the alert's handling.
- Remediation.KillHighCpuProcesses: the kill count in the message is rendered by a helper; a `kill` that raises something other than `CalledProcessError` is modelled as aborting the sweep.
- Notifier.LogIncident: a failed write is modelled as adding nothing; a partial line is not modelled.
- Evidence items that are not strings, and JSON objects in the configuration, are not modelled.
- OpsBot.LoadConfig: a configuration file that parses as JSON but not as an object (a list, a number, a string) is not modelled, since a parsed file is a map. `json.load` would return it, and the first `self.config.get` in `__init__` would raise AttributeError, so the agent would not be constructed.
- Analyzer.NewLogAnalyzer: a truthy model that is not a string (true, a non-zero number, a non-empty list) is modelled as a construction error. The code would accept it, since `model or default` keeps it, and pass it on as the model name.
- OpsBot.NotifiedOnceAfterRemediation: evidence that is null, a number, a string or a JSON object is not modelled, since a verdict's evidence is a list of strings or absent. Slicing null, a number or an object in `format_alert_message` raises. That happens after remediation has run, so such a reply gets no notification, no log line and no verification. The promise of one notification unless the engine raised does not cover such replies.
- LlmProvider.AnalyzeLogs: `requires_human_intervention` given as a JSON object is not modelled. An empty object is falsy and would pass the remediation gate.
- Monitor.DiskUsage: NaN and infinite samples are not modelled, since samples are reals. `max` over a list holding NaN can give NaN, which compares above no threshold and so suppresses the disk alert.
- Monitor.NetworkUsage: NaN and infinite rates are not modelled, since rates are reals. A NaN rate makes the sum NaN, which never alerts.

## Findings

| source | as written | input that shows it | evidently intended | confidence | as-written member | corrected member |
|---|---|---|---|---|---|---|
| DevOpsAgent/agent/opsbot_agent.py:25-27 | The agent builds `LogAnalyzer(openai_api_key=...)`, but `LogAnalyzer.__init__` (analyzer.py:9) accepts only `llm_provider`, `api_key` and `model`. The call raises TypeError, so the agent is never constructed and `main` only reports a startup error. | any configuration, including the default one written on first start | pass the configured key as `api_key=` | high, not executed | OpsBot.AgentAsWrittenNeverStarts | OpsBot.NewAgent |

=== FILE: analyzer.dfy ===
/** The log analyser (`LogAnalyzer`) as far as the core needs it: its
    constructor, which accepts exactly three keyword arguments, and
    `analyze_incident`, which diagnoses an alert and attaches the alert to
    the verdict. Log collection (journalctl, docker logs, ps) is a
    collaborator: the combined log text is an input. */
module Analyzer {
  import opened Common
  import opened Monitor
  import opened LlmProvider

  /** The keyword parameters of `LogAnalyzer.__init__`. */
  const AnalyzerKeywords: set<string> := {"llm_provider", "api_key", "model"}

  /** Python's binding of keyword arguments to `LogAnalyzer.__init__`: an
      unknown keyword is a `TypeError`; otherwise the provider is built from
      `llm_provider` (default "ollama"), `api_key` (default None) and
      `model` (default None). A falsy model of any type gives way to the
      provider's default, as `model or default` does. */
  function NewLogAnalyzer(kwargs: map<string, Json>): (r: Result<Provider>)
    ensures r.Ok? <==> kwargs.Keys <= AnalyzerKeywords
                       && ("llm_provider" in kwargs ==> kwargs["llm_provider"].JStr?)
                       && ("model" in kwargs ==> kwargs["model"].JStr? || !Truthy(kwargs["model"]))
    ensures r.Ok? ==> r.value.apiKey == (if "api_key" in kwargs then kwargs["api_key"] else JNull)
    ensures r.Ok? && "llm_provider" !in kwargs ==> r.value.name == "ollama"
    ensures r.Ok? && "model" in kwargs && Truthy(kwargs["model"]) ==> r.value.model == kwargs["model"].s
    ensures r.Ok? && ("model" !in kwargs || !Truthy(kwargs["model"])) ==>
              r.value.model == (if r.value.name in DefaultModels then DefaultModels[r.value.name] else "llama2")
  {
    if !(kwargs.Keys <= AnalyzerKeywords) then
      Err("TypeError: __init__() got an unexpected keyword argument")
    else
      var provider := if "llm_provider" in kwargs then kwargs["llm_provider"] else JStr("ollama");
      var model := if "model" in kwargs then kwargs["model"] else JNull;
      if !provider.JStr? then Err("AttributeError: provider has no attribute 'lower'")
      else if !(model.JStr? || !Truthy(model)) then Err("unsupported model value")
      else
        var apiKey := if "api_key" in kwargs then kwargs["api_key"] else JNull;
        assert Lower("ollama") == "ollama";
        Ok(NewProvider(provider.s, apiKey, if model.JStr? then Some(model.s) else None))
  }

  /** `analyze_incident`: the verdict of the provider for the alert's type
      (the type string is what the model is asked about), with the alert
      attached so that remediation can read its type back. */
  function AnalyzeIncident(p: Provider, alert: Alert, logs: string, backend: LlmCall -> QueryOutcome): (a: Analysis)
    ensures a.verdict.alertData == Some(alert)
    ensures a.call.Some? <==> Queries(p)
    ensures a.call.Some? ==> a.call.value.prompt == Prompt(logs, alert.kind.Name())
    ensures var plain := AnalyzeLogs(p, logs, alert.kind.Name(), backend).verdict;
            a.verdict == plain.(alertData := Some(alert))
  {
    var a := AnalyzeLogs(p, logs, alert.kind.Name(), backend);
    a.(verdict := a.verdict.(alertData := Some(alert)))
  }
}

=== FILE: common.dfy ===
/** Shared vocabulary of the incident pipeline model: optional values,
    results for Python exceptions, the JSON values the agent reads from its
    configuration file and from diagnostic replies (with Python truthiness),
    and the handful of `str` operations the agent relies on. */
module Common {

  /** A value that may be absent (Python `None` or a missing dictionary key). */
  datatype Option<+T> = None | Some(value: T) {
    /** `d.get(key, default)` */
    function GetOr(default: T): T {
      match this
      case Some(v) => v
      case None => default
    }
  }

  /** The outcome of a Python call that may raise: `Err` carries the text of
      the exception. Failure-compatible, so `:-` propagates an exception. */
  datatype Result<+T> = Ok(value: T) | Err(error: string) {
    predicate IsFailure() {
      Err?
    }

    function PropagateFailure<U>(): Result<U>
      requires Err?
    {
      Err(error)
    }

    function Extract(): T
      requires Ok?
    {
      value
    }
  }

  /** A JSON value as `json.load` hands it to the agent (objects are not
      needed by the core). */
  datatype Json = JNull | JBool(b: bool) | JNum(n: real) | JStr(s: string) | JArray(items: seq<Json>)

  /** Python truthiness of a JSON value: `None`, `False`, `0`, `""` and `[]`
      are false, everything else is true. */
  predicate Truthy(j: Json) {
    match j
    case JNull => false
    case JBool(b) => b
    case JNum(n) => n != 0.0
    case JStr(s) => s != ""
    case JArray(items) => items != []
  }

  // ---------------------------------------------------------------------
  // Strings

  /** `s[:n]` */
  function Take<T>(s: seq<T>, n: nat): (r: seq<T>)
    ensures |r| == if n < |s| then n else |s|
    ensures r == s[..|r|]
  {
    if n < |s| then s[..n] else s
  }

  function LowerChar(c: char): char {
    if 'A' <= c <= 'Z' then (c as int + 32) as char else c
  }

  /** `s.lower()` on the ASCII letters. */
  function Lower(s: string): (r: string)
    ensures |r| == |s|
    ensures forall i :: 0 <= i < |s| ==> r[i] == LowerChar(s[i])
  {
    seq(|s|, i requires 0 <= i < |s| => LowerChar(s[i]))
  }

  /** Lower-casing is idempotent, so a name normalised once is normalised. */
  lemma LowerIdempotent(s: string)
    ensures Lower(Lower(s)) == Lower(s)
  {
    assert forall i :: 0 <= i < |s| ==> LowerChar(LowerChar(s[i])) == LowerChar(s[i]);
  }

  predicate IsPrefix(p: string, s: string) {
    |p| <= |s| && s[..|p|] == p
  }

  /** `sub in s` for strings: `sub` occurs as a contiguous piece of `s`. */
  predicate Contains(s: string, sub: string)
    decreases |s|
  {
    IsPrefix(sub, s) || (|s| > 0 && Contains(s[1..], sub))
  }

  /** `sub` sits in `s` starting at position `i`. */
  predicate OccursAt(s: string, sub: string, i: int) {
    0 <= i <= |s| - |sub| && s[i..i + |sub|] == sub
  }

  /** Contains agrees with the positional reading of `sub in s`. */
  lemma {:induction false} ContainsAt(s: string, sub: string)
    ensures Contains(s, sub) <==> exists i :: OccursAt(s, sub, i)
    decreases |s|
  {
    if IsPrefix(sub, s) {
      assert OccursAt(s, sub, 0);
    } else if |s| > 0 {
      ContainsAt(s[1..], sub);
      if Contains(s[1..], sub) {
        var i :| OccursAt(s[1..], sub, i);
        assert s[i + 1..i + 1 + |sub|] == s[1..][i..i + |sub|];
        assert OccursAt(s, sub, i + 1);
      }
      if exists i :: OccursAt(s, sub, i) {
        var i :| OccursAt(s, sub, i);
        assert i != 0;
        assert s[1..][i - 1..i - 1 + |sub|] == s[i..i + |sub|];
        assert OccursAt(s[1..], sub, i - 1);
      }
    }
  }

  /** The ASCII characters `str.strip()` removes: space, tab, line feed,
      vertical tab, form feed, carriage return, and the separators
      0x1c to 0x1f. */
  predicate IsSpace(c: char) {
    c == ' ' || (9 <= c as int <= 13) || (0x1c <= c as int <= 0x1f)
  }

  function TrimStart(s: string): (r: string)
    ensures |r| <= |s| && r == s[|s| - |r|..]
    ensures r == [] || !IsSpace(r[0])
    ensures forall i :: 0 <= i < |s| - |r| ==> IsSpace(s[i])
  {
    if |s| > 0 && IsSpace(s[0]) then TrimStart(s[1..]) else s
  }

  function TrimEnd(s: string): (r: string)
    ensures |r| <= |s| && r == s[..|r|]
    ensures r == [] || !IsSpace(r[|r| - 1])
    ensures forall i :: |r| <= i < |s| ==> IsSpace(s[i])
  {
    if |s| > 0 && IsSpace(s[|s| - 1]) then TrimEnd(s[..|s| - 1]) else s
  }

  /** `r` sits in `s` at `k`, and everything of `s` around it is whitespace. */
  predicate TrimmedAt(s: string, r: string, k: int) {
    && OccursAt(s, r, k)
    && (forall i :: 0 <= i < k ==> IsSpace(s[i]))
    && (forall i :: k + |r| <= i < |s| ==> IsSpace(s[i]))
  }

  /** Whitespace dropped from the front of `s` (leaving `t`) and then from
      the back of `t` (leaving `r`) surrounds `r` in `s`. */
  lemma TrimmedBetween(s: string, t: string, r: string)
    requires |t| <= |s| && t == s[|s| - |t|..]
    requires forall i :: 0 <= i < |s| - |t| ==> IsSpace(s[i])
    requires |r| <= |t| && r == t[..|r|]
    requires forall i :: |r| <= i < |t| ==> IsSpace(t[i])
    ensures TrimmedAt(s, r, |s| - |t|)
  {
    var k := |s| - |t|;
    assert s[k..k + |r|] == s[k..][..|r|];
    forall i | k + |r| <= i < |s|
      ensures IsSpace(s[i])
    {
      assert s[i] == t[i - k];
    }
  }

  /** `s.strip()`: the slice of `s` that neither starts nor ends with
      whitespace, obtained by dropping only whitespace at both ends. */
  function Strip(s: string): (r: string)
    ensures r == [] || (!IsSpace(r[0]) && !IsSpace(r[|r| - 1]))
    ensures exists k :: TrimmedAt(s, r, k)
  {
    var t := TrimStart(s);
    var r := TrimEnd(t);
    TrimmedBetween(s, t, r);
    r
  }

  /** `s.split(sep)`: the pieces of `s` between occurrences of `sep`. */
  function SplitOn(s: string, sep: char): (r: seq<string>)
    ensures |r| >= 1
    ensures forall i :: 0 <= i < |r| ==> sep !in r[i]
    decreases |s|
  {
    if |s| == 0 then [""]
    else
      var rest := SplitOn(s[1..], sep);
      if s[0] == sep then [""] + rest
      else [[s[0]] + rest[0]] + rest[1..]
  }

  /** `sep.join(parts)` */
  function Join(parts: seq<string>, sep: string): string
    decreases |parts|
  {
    if |parts| == 0 then ""
    else if |parts| == 1 then parts[0]
    else parts[0] + sep + Join(parts[1..], sep)
  }

  /** Splitting and re-joining on the same separator gives the text back:
      no character of the process listing is lost by the line split. */
  lemma {:induction false} SplitJoin(s: string, sep: char)
    ensures Join(SplitOn(s, sep), [sep]) == s
    decreases |s|
  {
    if |s| > 0 {
      var rest := SplitOn(s[1..], sep);
      SplitJoin(s[1..], sep);
      if s[0] == sep {
        assert SplitOn(s, sep) == [""] + rest;
        assert ([""] + rest)[1..] == rest;
      } else {
        var parts := [[s[0]] + rest[0]] + rest[1..];
        assert SplitOn(s, sep) == parts;
        if |rest| == 1 {
          assert Join(rest, [sep]) == rest[0];
        } else {
          assert parts[1..] == rest[1..];
          assert Join(rest, [sep]) == rest[0] + [sep] + Join(rest[1..], [sep]);
        }
      }
    }
  }

  /** `str(n)` for a natural number. */
  function NatToString(n: nat): (r: string)
    ensures |r| >= 1
    ensures forall i :: 0 <= i < |r| ==> '0' <= r[i] <= '9'
  {
    var d := ['0' + (n % 10) as char];
    if n < 10 then d else NatToString(n / 10) + d
  }

  /** `xs` occurs in `ys` in the same order, possibly with gaps. */
  predicate SubsequenceOf<T(==)>(xs: seq<T>, ys: seq<T>)
    decreases |ys|
  {
    if |xs| == 0 then true
    else if |ys| == 0 then false
    else if xs[0] == ys[0] then SubsequenceOf(xs[1..], ys[1..])
    else SubsequenceOf(xs, ys[1..])
  }

  lemma {:induction false} SubsequenceMembers<T>(xs: seq<T>, ys: seq<T>)
    requires SubsequenceOf(xs, ys)
    ensures forall x :: x in xs ==> x in ys
    decreases |ys|
  {
    if |xs| > 0 {
      assert forall x :: x in xs ==> x == xs[0] || x in xs[1..];
      if xs[0] == ys[0] {
        SubsequenceMembers(xs[1..], ys[1..]);
        assert forall y :: y in ys[1..] ==> y in ys;
      } else {
        SubsequenceMembers(xs, ys[1..]);
      }
    }
  }

  /** Putting one more element in front keeps a subsequence a subsequence. */
  lemma {:induction false} SubsequencePrepend<T>(xs: seq<T>, ys: seq<T>, y: T)
    requires SubsequenceOf(xs, ys)
    ensures SubsequenceOf(xs, [y] + ys)
    decreases |ys|, 1
  {
    assert ([y] + ys)[1..] == ys;
    if xs != [] && xs[0] == y {
      SubsequenceTail(xs, ys);
    }
  }

  /** Dropping the first element keeps a subsequence a subsequence. */
  lemma {:induction false} SubsequenceTail<T>(xs: seq<T>, ys: seq<T>)
    requires xs != [] && SubsequenceOf(xs, ys)
    ensures SubsequenceOf(xs[1..], ys)
    decreases |ys|, 0
  {
    if xs[0] == ys[0] {
      SubsequencePrepend(xs[1..], ys[1..], ys[0]);
    } else {
      SubsequenceTail(xs, ys[1..]);
      SubsequencePrepend(xs[1..], ys[1..], ys[0]);
    }
    assert [ys[0]] + ys[1..] == ys;
  }
}

=== FILE: llm_provider.dfy ===
/** The diagnostic provider (`LLMProvider`): provider-name normalisation,
    default model choice, the analysis prompt, dispatch to a backend and the
    fixed fallback verdict returned whenever a backend cannot answer. The
    backend itself (an HTTP or SDK call plus JSON parsing of its reply) is a
    collaborator: a function from the request to what came back. */
module LlmProvider {
  import opened Common
  import opened Monitor

  /** A diagnosis as the agent passes it around (the parsed JSON reply of the
      language model, later extended with the alert it is about). Every
      field may be missing from the reply, so every field is optional. */
  datatype Verdict = Verdict(
    rootCause: Option<Json>,
    confidence: Option<Json>,
    evidence: Option<seq<string>>,
    recommendedActions: Option<seq<string>>,
    requiresHuman: Option<Json>,
    alertData: Option<Alert>)

  /** A configured provider: lower-cased name, API key, model. */
  datatype Provider = Provider(name: string, apiKey: Json, model: string)

  const DefaultModels: map<string, string> := map[
    "ollama" := "llama2",
    "groq" := "llama2-70b-4096",
    "anthropic" := "claude-3-haiku-20240307",
    "openai" := "gpt-3.5-turbo"]

  /** The providers whose query method refuses to run without an API key. */
  const KeyedProviders: set<string> := {"groq", "anthropic", "openai"}

  /** `LLMProvider(provider, api_key, model)`: the name is lower-cased, and
      the model is the explicit one when non-empty, else the provider's
      default, else "llama2". */
  function NewProvider(provider: string, apiKey: Json, model: Option<string>): (p: Provider)
    ensures p.name == Lower(provider) && p.apiKey == apiKey
    ensures model.Some? && model.value != "" ==> p.model == model.value
    ensures (model.None? || model.value == "") ==>
              p.model == (if p.name in DefaultModels then DefaultModels[p.name] else "llama2")
  {
    var name := Lower(provider);
    var chosen := if model.Some? && model.value != "" then model.value
                  else if name in DefaultModels then DefaultModels[name]
                  else "llama2";
    Provider(name, apiKey, chosen)
  }

  /** Provider names are case-insensitive: any spelling of a name configures
      the same provider as its lower-case spelling. */
  lemma ProviderNameCaseInsensitive(provider: string, apiKey: Json, model: Option<string>)
    ensures NewProvider(Lower(provider), apiKey, model) == NewProvider(provider, apiKey, model)
  {
    LowerIdempotent(provider);
  }

  // The prompt's instruction wording is abstracted to three fixed pieces;
  // what matters is where the alert type and the logs go.
  const PromptIntro: string := "Identify the possible cause of a "
  const PromptLogsHeading: string := ".\nLogs to analyze:\n"
  const PromptReplyFormat: string := "\nRespond in JSON (root_cause, confidence, evidence, recommended_actions, requires_human_intervention).\n"

  /** At most this many characters of the logs reach the model. */
  const PromptLogLimit: nat := 4000

  /** `_create_analysis_prompt` */
  function Prompt(logs: string, alertType: string): string {
    PromptIntro + alertType + PromptLogsHeading + Take(logs, PromptLogLimit) + PromptReplyFormat
  }

  /** The prompt sees only the first 4000 characters of the logs: two logs
      that agree there give the same prompt, and its length is bounded
      independently of the logs' length. The alert type and those first
      characters do appear in it. */
  lemma PromptSeesOnlyLogPrefix(logs1: string, logs2: string, alertType: string)
    requires Take(logs1, PromptLogLimit) == Take(logs2, PromptLogLimit)
    ensures Prompt(logs1, alertType) == Prompt(logs2, alertType)
    ensures |Prompt(logs1, alertType)| <= |PromptIntro| + |alertType| + |PromptLogsHeading| + PromptLogLimit + |PromptReplyFormat|
    ensures Contains(Prompt(logs1, alertType), Take(logs1, PromptLogLimit))
    ensures Contains(Prompt(logs1, alertType), alertType)
  {
    var p := Prompt(logs1, alertType);
    var head := PromptIntro + alertType + PromptLogsHeading;
    var shown := Take(logs1, PromptLogLimit);
    assert p == head + shown + PromptReplyFormat;
    assert p[|head|..|head| + |shown|] == shown;
    assert OccursAt(p, shown, |head|);
    assert p[|PromptIntro|..|PromptIntro| + |alertType|] == alertType;
    assert OccursAt(p, alertType, |PromptIntro|);
    ContainsAt(p, shown);
    ContainsAt(p, alertType);
  }

  /** The request handed to a backend. */
  datatype LlmCall = LlmCall(provider: string, model: string, prompt: string)

  /** What a backend query came to: a parsed reply, or an exception (HTTP
      error status, network failure, unparsable JSON, missing SDK). */
  datatype QueryOutcome = Replied(verdict: Verdict) | QueryRaised(error: string)

  /** A verdict together with the backend request made for it, if any. */
  datatype Analysis = Analysis(verdict: Verdict, call: Option<LlmCall>)

  // The fixed texts of the fallback verdict; the root cause names the alert
  // type between head and tail.
  const FallbackCauseHead: string := "Unable to analyze "
  const FallbackCauseTail: string := " automatically - LLM provider unavailable"
  const FallbackEvidence: seq<string> := ["LLM analysis failed"]
  const FallbackActions: seq<string> := ["Check system logs manually", "Restart affected services if needed", "Monitor system metrics"]

  /** `_fallback_analysis`: a low-confidence verdict demanding a human. */
  function Fallback(alertType: string): (v: Verdict)
    ensures v.confidence == Some(JStr("LOW"))
    ensures v.requiresHuman.Some? && Truthy(v.requiresHuman.value)
    ensures v.evidence == Some(FallbackEvidence)
    ensures v.recommendedActions.Some? && |v.recommendedActions.value| == 3
    ensures v.rootCause.Some? && v.rootCause.value.JStr? && Contains(v.rootCause.value.s, alertType)
    ensures v.alertData.None?
  {
    var cause := FallbackCauseHead + alertType + FallbackCauseTail;
    assert cause[|FallbackCauseHead|..|FallbackCauseHead| + |alertType|] == alertType;
    ContainsAt(cause, alertType);
    assert OccursAt(cause, alertType, |FallbackCauseHead|);
    Verdict(
      Some(JStr(cause)),
      Some(JStr("LOW")),
      Some(FallbackEvidence),
      Some(FallbackActions),
      Some(JBool(true)),
      None)
  }

  /** Whether `analyze_logs` reaches a backend at all: ollama always does,
      groq/anthropic/openai only with a truthy API key (their query methods
      raise before any request otherwise), unknown providers never. */
  predicate Queries(p: Provider) {
    p.name == "ollama" || (p.name in KeyedProviders && Truthy(p.apiKey))
  }

  /** `analyze_logs`: never raises. It queries the backend when the provider
      is known and usable, with the provider's name, model and the prompt,
      and returns the backend's reply; any other path, and any exception
      from the query, yields the fallback verdict for the alert type. */
  function AnalyzeLogs(p: Provider, logs: string, alertType: string, backend: LlmCall -> QueryOutcome): (a: Analysis)
    ensures a.call.Some? <==> Queries(p)
    ensures a.call.Some? ==> a.call.value == LlmCall(p.name, p.model, Prompt(logs, alertType))
    ensures a.call.None? ==> a.verdict == Fallback(alertType)
    ensures a.call.Some? && backend(a.call.value).QueryRaised? ==> a.verdict == Fallback(alertType)
    ensures a.call.Some? && backend(a.call.value).Replied? ==> a.verdict == backend(a.call.value).verdict
  {
    var call := LlmCall(p.name, p.model, Prompt(logs, alertType));
    if p.name == "ollama" || p.name in KeyedProviders then
      if p.name in KeyedProviders && !Truthy(p.apiKey) then
        Analysis(Fallback(alertType), None)        // "API key required" raised
      else
        match backend(call)
        case Replied(v) => Analysis(v, Some(call))
        case QueryRaised(_) => Analysis(Fallback(alertType), Some(call))
    else
      Analysis(Fallback(alertType), None)          // unknown provider
  }

  /** A provider configured with an unknown name never contacts a backend
      and always answers with the fallback. */
  lemma UnknownProviderFallsBack(provider: string, apiKey: Json, model: Option<string>,
                                 logs: string, alertType: string, backend: LlmCall -> QueryOutcome)
    requires Lower(provider) !in DefaultModels
    ensures NewProvider(provider, apiKey, model).model == (if model.Some? && model.value != "" then model.value else "llama2")
    ensures AnalyzeLogs(NewProvider(provider, apiKey, model), logs, alertType, backend)
            == Analysis(Fallback(alertType), None)
  {
  }
}

=== FILE: monitor.dfy ===
/** The metric side of the agent (`SystemMonitor`): four readings taken from
    Prometheus query results, and the thresholding that turns them into an
    ordered list of alerts. The Prometheus queries themselves are
    collaborators; what they answered is an input (`MetricQuery`). */
module Monitor {
  import opened Common

  /** The alert classes, in the order the monitor checks them. */
  datatype AlertKind = CpuSpike | MemorySpike | DiskSpike | NetworkSpike {
    /** The `type` string an alert dictionary carries. */
    function Name(): string {
      match this
      case CpuSpike => "CPU_SPIKE"
      case MemorySpike => "MEMORY_SPIKE"
      case DiskSpike => "DISK_SPIKE"
      case NetworkSpike => "NETWORK_SPIKE"
    }

    /** Position of the class in the monitor's fixed checking order. */
    function Rank(): nat {
      match this
      case CpuSpike => 0
      case MemorySpike => 1
      case DiskSpike => 2
      case NetworkSpike => 3
    }
  }

  datatype Severity = Low | Medium | High {
    function Name(): string {
      match this
      case Low => "LOW"
      case Medium => "MEDIUM"
      case High => "HIGH"
    }
  }

  /** One alert dictionary: class, the reading that breached, the threshold
      it breached, the detection time and a severity. */
  datatype Alert = Alert(kind: AlertKind, value: real, threshold: real, timestamp: string, severity: Severity)

  // The thresholds are fixed in the monitor's constructor; configuration
  // never reaches them.
  const CpuThreshold: real := 80.0
  const MemoryThreshold: real := 85.0
  const DiskThreshold: real := 90.0
  const NetworkThreshold: real := 1000000.0 // bytes per second

  function Threshold(k: AlertKind): real {
    match k
    case CpuSpike => CpuThreshold
    case MemorySpike => MemoryThreshold
    case DiskSpike => DiskThreshold
    case NetworkSpike => NetworkThreshold
  }

  /** What one Prometheus query produced: an exception, or the sample value
      of each returned series (possibly none). */
  datatype MetricQuery = QueryFailed | Answered(samples: seq<real>)

  /** The answers to the four queries of one monitoring pass. */
  datatype Probe = Probe(cpu: MetricQuery, memory: MetricQuery, disk: MetricQuery, network: MetricQuery) {
    function Query(k: AlertKind): MetricQuery {
      match k
      case CpuSpike => cpu
      case MemorySpike => memory
      case DiskSpike => disk
      case NetworkSpike => network
    }
  }

  /** A query that raised or returned no series. */
  predicate Unreachable(q: MetricQuery) {
    q.QueryFailed? || q.samples == []
  }

  /** CPU and memory usage: the first series' sample, 0.0 on failure. */
  function FirstSample(q: MetricQuery): (r: real)
    ensures Unreachable(q) ==> r == 0.0
    ensures !Unreachable(q) ==> r == q.samples[0]
  {
    match q
    case QueryFailed => 0.0
    case Answered(s) => if s == [] then 0.0 else s[0]
  }

  /** The largest sample of a non-empty list. */
  function MaxOf(s: seq<real>): (r: real)
    requires s != []
    ensures r in s
    ensures forall i :: 0 <= i < |s| ==> s[i] <= r
  {
    if |s| == 1 then s[0]
    else
      var m := MaxOf(s[1..]);
      assert forall i :: 1 <= i < |s| ==> s[i] == s[1..][i - 1];
      if s[0] >= m then s[0] else m
  }

  function SumOf(s: seq<real>): real {
    if s == [] then 0.0 else s[0] + SumOf(s[1..])
  }

  /** Summing per-interface rates is additive over any split of the list. */
  lemma {:induction false} SumOfAppend(a: seq<real>, b: seq<real>)
    ensures SumOf(a + b) == SumOf(a) + SumOf(b)
    decreases |a|
  {
    if a == [] {
      assert a + b == b;
    } else {
      assert (a + b)[1..] == a[1..] + b;
      SumOfAppend(a[1..], b);
    }
  }

  /** With non-negative rates, the total is at least every single rate. */
  lemma {:induction false} SumOfBounds(s: seq<real>)
    requires forall i :: 0 <= i < |s| ==> s[i] >= 0.0
    ensures SumOf(s) >= 0.0
    ensures forall i :: 0 <= i < |s| ==> s[i] <= SumOf(s)
    decreases |s|
  {
    if s != [] {
      SumOfBounds(s[1..]);
      assert forall i :: 1 <= i < |s| ==> s[i] == s[1..][i - 1];
    }
  }

  /** Disk usage: the fullest filesystem, 0.0 on failure or no series. */
  function DiskUsage(q: MetricQuery): (r: real)
    ensures Unreachable(q) ==> r == 0.0
    ensures !Unreachable(q) ==> r in q.samples && forall i :: 0 <= i < |q.samples| ==> q.samples[i] <= r
  {
    match q
    case QueryFailed => 0.0
    case Answered(s) => if s == [] then 0.0 else MaxOf(s)
  }

  /** Network usage: the summed rate of every interface, 0.0 on failure. */
  function NetworkUsage(q: MetricQuery): (r: real)
    ensures Unreachable(q) ==> r == 0.0
    ensures q.Answered? ==> r == SumOf(q.samples)
  {
    match q
    case QueryFailed => 0.0
    case Answered(s) => SumOf(s)
  }

  /** The four readings one pass works from. */
  datatype Readings = Readings(cpu: real, memory: real, disk: real, network: real) {
    function Of(k: AlertKind): real {
      match k
      case CpuSpike => cpu
      case MemorySpike => memory
      case DiskSpike => disk
      case NetworkSpike => network
    }
  }

  function Read(p: Probe): Readings {
    Readings(FirstSample(p.cpu), FirstSample(p.memory), DiskUsage(p.disk), NetworkUsage(p.network))
  }

  /** Severity rule of each class, applied to the breaching value. */
  function SeverityOf(k: AlertKind, value: real): Severity {
    match k
    case CpuSpike => if value > 90.0 then High else Medium
    case MemorySpike => if value > 95.0 then High else Medium
    case DiskSpike => High
    case NetworkSpike => Medium
  }

  /** The alert of class `k`, if its reading is strictly above threshold. */
  function Breach(rd: Readings, k: AlertKind, now: string): (r: seq<Alert>)
    ensures |r| <= 1
    ensures r != [] <==> rd.Of(k) > Threshold(k)
    ensures forall a :: a in r ==> a.kind == k && Faithful(rd, now, a)
  {
    if rd.Of(k) > Threshold(k) then [Alert(k, rd.Of(k), Threshold(k), now, SeverityOf(k, rd.Of(k)))] else []
  }

  /** The alert reports its class's reading and threshold, the pass's time
      and the class's severity rule. */
  predicate Faithful(rd: Readings, now: string, a: Alert) {
    && a.value == rd.Of(a.kind)
    && a.threshold == Threshold(a.kind)
    && a.timestamp == now
    && a.severity == SeverityOf(a.kind, a.value)
  }

  /** Classes appear in checking order, each at most once. */
  predicate InCheckOrder(alerts: seq<Alert>) {
    forall i, j :: 0 <= i < j < |alerts| ==> alerts[i].kind.Rank() < alerts[j].kind.Rank()
  }

  lemma ExtendInCheckOrder(xs: seq<Alert>, ys: seq<Alert>, k: AlertKind)
    requires InCheckOrder(xs) && |ys| <= 1
    requires forall a :: a in xs ==> a.kind.Rank() < k.Rank()
    requires forall a :: a in ys ==> a.kind == k
    ensures InCheckOrder(xs + ys)
  {
    forall i, j | 0 <= i < j < |xs + ys|
      ensures (xs + ys)[i].kind.Rank() < (xs + ys)[j].kind.Rank()
    {
      if j >= |xs| {
        assert (xs + ys)[i] in xs;
        assert (xs + ys)[j] in ys;
      }
    }
  }

  /** `check_anomalies`: one alert per class whose reading is strictly above
      its threshold, in the order CPU, memory, disk, network, each carrying
      its reading, its threshold, the shared detection time and the class's
      severity rule. */
  function CheckAnomalies(rd: Readings, now: string): (alerts: seq<Alert>)
    ensures |alerts| <= 4
    ensures InCheckOrder(alerts)
    ensures forall k: AlertKind :: (exists a :: a in alerts && a.kind == k) <==> rd.Of(k) > Threshold(k)
    ensures forall a :: a in alerts ==> Faithful(rd, now, a)
  {
    var c := Breach(rd, CpuSpike, now);
    var m := Breach(rd, MemorySpike, now);
    var d := Breach(rd, DiskSpike, now);
    var n := Breach(rd, NetworkSpike, now);
    CheckOrderOfFour(c, m, d, n);
    FourBreaches(rd, now);
    c + m + d + n
  }

  /** The four breach checks together report exactly the classes above
      threshold, each faithfully. */
  lemma FourBreaches(rd: Readings, now: string)
    ensures var alerts := Breach(rd, CpuSpike, now) + Breach(rd, MemorySpike, now)
                          + Breach(rd, DiskSpike, now) + Breach(rd, NetworkSpike, now);
            && (forall k: AlertKind :: (exists a :: a in alerts && a.kind == k) <==> rd.Of(k) > Threshold(k))
            && (forall a :: a in alerts ==> Faithful(rd, now, a))
  {
    var c := Breach(rd, CpuSpike, now);
    var m := Breach(rd, MemorySpike, now);
    var d := Breach(rd, DiskSpike, now);
    var n := Breach(rd, NetworkSpike, now);
    var alerts := c + m + d + n;
    assert forall a :: a in alerts <==> a in c || a in m || a in d || a in n;
    forall k: AlertKind
      ensures (exists a: Alert :: a in alerts && a.kind == k) <==> rd.Of(k) > Threshold(k)
    {
      if rd.Of(k) > Threshold(k) {
        var b := Breach(rd, k, now);
        assert b[0] in alerts by {
          match k
          case CpuSpike => assert b == c;
          case MemorySpike => assert b == m;
          case DiskSpike => assert b == d;
          case NetworkSpike => assert b == n;
        }
      }
    }
  }

  lemma CheckOrderOfFour(c: seq<Alert>, m: seq<Alert>, d: seq<Alert>, n: seq<Alert>)
    requires |c| <= 1 && |m| <= 1 && |d| <= 1 && |n| <= 1
    requires forall a :: a in c ==> a.kind == CpuSpike
    requires forall a :: a in m ==> a.kind == MemorySpike
    requires forall a :: a in d ==> a.kind == DiskSpike
    requires forall a :: a in n ==> a.kind == NetworkSpike
    ensures InCheckOrder(c + m + d + n)
  {
    ExtendInCheckOrder([], c, CpuSpike);
    assert [] + c == c;
    ExtendInCheckOrder(c, m, MemorySpike);
    assert forall a :: a in c + m ==> a.kind.Rank() < 2;
    ExtendInCheckOrder(c + m, d, DiskSpike);
    assert forall a :: a in c + m + d ==> a.kind.Rank() < 3;
    ExtendInCheckOrder(c + m + d, n, NetworkSpike);
  }

  /** The severity rules an alert of each class follows: CPU is HIGH above
      90, memory above 95, otherwise MEDIUM; disk is always HIGH and
      network always MEDIUM. */
  lemma SeverityRules(rd: Readings, now: string)
    ensures forall a :: a in CheckAnomalies(rd, now) && a.kind == CpuSpike ==>
              a.severity != Low && (a.severity == High <==> a.value > 90.0)
    ensures forall a :: a in CheckAnomalies(rd, now) && a.kind == MemorySpike ==>
              a.severity != Low && (a.severity == High <==> a.value > 95.0)
    ensures forall a :: a in CheckAnomalies(rd, now) && a.kind == DiskSpike ==> a.severity == High
    ensures forall a :: a in CheckAnomalies(rd, now) && a.kind == NetworkSpike ==> a.severity == Medium
  {
  }

  /** One monitoring pass from the query answers. */
  function Scan(p: Probe, now: string): seq<Alert> {
    CheckAnomalies(Read(p), now)
  }

  /** A metric Prometheus could not deliver never raises an alert: its
      reading falls back to 0.0, below every threshold. */
  lemma UnreachableMetricIsSilent(p: Probe, now: string, k: AlertKind)
    requires Unreachable(p.Query(k))
    ensures forall a :: a in Scan(p, now) ==> a.kind != k
  {
    assert Read(p).Of(k) == 0.0;
  }
}

=== FILE: notifier.dfy ===
/** The notification manager (`NotificationManager`): which sections an
    alert message has, which channels a notification is attempted on, what
    each channel reports, and the append-only incident log. Slack, the
    webhook endpoint and the log file are collaborators: what each delivery
    came to is an input. The message is modelled as its ordered sections,
    not as rendered text. */
module Notifier {
  import opened Common
  import opened Monitor
  import opened LlmProvider
  import opened Remediation

  /** The severity markers. */
  datatype Emoji = Siren | Warning | Diamond

  /** The severity marker lookup, with MEDIUM as the default severity and
      MEDIUM's marker for any unknown severity. */
  function SeverityEmoji(severity: Option<string>): Emoji {
    var s := severity.GetOr("MEDIUM");
    if s == "HIGH" then Siren
    else if s == "LOW" then Diamond
    else Warning
  }

  /** HIGH, MEDIUM and LOW have pairwise distinct markers; every other
      severity, and a missing one, shows MEDIUM's. */
  lemma SeverityEmojiRules(other: string)
    requires other !in {"HIGH", "MEDIUM", "LOW"}
    ensures SeverityEmoji(Some("HIGH")) != SeverityEmoji(Some("MEDIUM"))
    ensures SeverityEmoji(Some("HIGH")) != SeverityEmoji(Some("LOW"))
    ensures SeverityEmoji(Some("MEDIUM")) != SeverityEmoji(Some("LOW"))
    ensures SeverityEmoji(Some(other)) == SeverityEmoji(Some("MEDIUM"))
    ensures SeverityEmoji(None) == SeverityEmoji(Some("MEDIUM"))
  {
  }

  /** The sections of an alert message. `RemediationFailed` carries the
      request for human intervention. */
  datatype Section =
    | Headline(emoji: Emoji, alertType: string, value: real, threshold: real, severity: string, timestamp: string)
    | RootCause(cause: Json, confidence: Json, evidence: seq<string>)
    | RemediationDone(details: string, completed: seq<string>)
    | RemediationFailed(reason: string)
    | Links

  type Message = seq<Section>

  predicate HasRemediationSection(m: Message) {
    exists i :: 0 <= i < |m| && (m[i].RemediationDone? || m[i].RemediationFailed?)
  }

  /** The message asks for a human. */
  predicate RequestsHuman(m: Message) {
    exists i :: 0 <= i < |m| && m[i].RemediationFailed?
  }

  /** Every sub-result's message, in order. */
  function StepMessages(steps: seq<StepResult>): (ms: seq<string>)
    ensures |ms| == |steps|
  {
    seq(|steps|, i requires 0 <= i < |steps| => steps[i].message)
  }

  /** How many sub-results succeeded. */
  function SuccessCount(steps: seq<StepResult>): nat
    decreases |steps|
  {
    if steps == [] then 0
    else (if steps[0].success then 1 else 0) + SuccessCount(steps[1..])
  }

  /** The messages of the successful sub-results, in order. */
  function CompletedMessages(steps: seq<StepResult>): (r: seq<string>)
    ensures |r| == SuccessCount(steps)
    ensures SubsequenceOf(r, StepMessages(steps))
    ensures forall x :: x in r ==> exists i :: 0 <= i < |steps| && steps[i].success && steps[i].message == x
    ensures forall i :: 0 <= i < |steps| && steps[i].success ==> steps[i].message in r
    decreases |steps|
  {
    if steps == [] then []
    else
      var rest := CompletedMessages(steps[1..]);
      assert forall i :: 1 <= i < |steps| ==> steps[i] == steps[1..][i - 1];
      assert StepMessages(steps)[1..] == StepMessages(steps[1..]);
      if steps[0].success then
        assert ([steps[0].message] + rest)[1..] == rest;
        [steps[0].message] + rest
      else
        SubsequencePrepend(rest, StepMessages(steps[1..]), steps[0].message);
        rest
  }

  /** The completed messages of a concatenation are those of each part, one
      after the other: a later step's message never comes before an earlier
      one's. */
  lemma {:induction false} CompletedMessagesAppend(a: seq<StepResult>, b: seq<StepResult>)
    ensures CompletedMessages(a + b) == CompletedMessages(a) + CompletedMessages(b)
    decreases |a|
  {
    if a == [] {
      assert a + b == b;
    } else {
      assert (a + b)[0] == a[0];
      assert (a + b)[1..] == a[1..] + b;
      CompletedMessagesAppend(a[1..], b);
    }
  }

  function RemediationSection(r: RemediationResult): Section {
    if r.Success() then
      RemediationDone(r.Message().GetOr("Remediation completed"), CompletedMessages(r.steps))
    else
      RemediationFailed(r.Message().GetOr("Unknown error"))
  }

  /** `format_alert_message`: the headline first and the links last; between
      them the root-cause section when an analysis is given, then the
      remediation section when a remediation result is given. */
  function FormatAlertMessage(alert: Alert, analysis: Option<Verdict>, remediation: Option<RemediationResult>): (m: Message)
    ensures |m| == 2 + (if analysis.Some? then 1 else 0) + (if remediation.Some? then 1 else 0)
    ensures m[0] == Headline(SeverityEmoji(Some(alert.severity.Name())), alert.kind.Name(),
                             alert.value, alert.threshold, alert.severity.Name(), alert.timestamp)
    ensures m[|m| - 1] == Links
    ensures analysis.Some? ==> m[1] == RootCauseSection(analysis.value)
    ensures remediation.Some? ==> m[|m| - 2] == RemediationSection(remediation.value)
  {
    var cause := if analysis.Some? then [RootCauseSection(analysis.value)] else [];
    var fix := if remediation.Some? then [RemediationSection(remediation.value)] else [];
    [Headline(SeverityEmoji(Some(alert.severity.Name())), alert.kind.Name(),
              alert.value, alert.threshold, alert.severity.Name(), alert.timestamp)]
    + cause + fix + [Links]
  }

  /** The root-cause section of an analysis, with the defaults of missing
      fields and the evidence cut to its first three items. */
  function RootCauseSection(v: Verdict): Section {
    RootCause(v.rootCause.GetOr(JStr("Unknown")), v.confidence.GetOr(JStr("LOW")), Take(v.evidence.GetOr([]), 3))
  }

  /** Which sections a message has: a root cause exactly when an analysis
      is given; a remediation section exactly when a remediation result is
      given; a request for human intervention exactly when that result is a
      failure (refused, or nothing succeeded); and on success the listed
      completions are the messages of the successful sub-results only. */
  lemma MessageSections(alert: Alert, analysis: Option<Verdict>, remediation: Option<RemediationResult>)
    ensures var m := FormatAlertMessage(alert, analysis, remediation);
            && ((exists i :: 0 <= i < |m| && m[i].RootCause?) <==> analysis.Some?)
            && (HasRemediationSection(m) <==> remediation.Some?)
            && (RequestsHuman(m) <==> remediation.Some? && !remediation.value.Success())
            && (remediation.Some? && remediation.value.Success() ==>
                  m[|m| - 2] == RemediationDone("Remediation completed", CompletedMessages(remediation.value.steps)))
  {
    var m := FormatAlertMessage(alert, analysis, remediation);
    if analysis.Some? {
      assert m[1].RootCause?;
    }
    if remediation.Some? {
      assert m[|m| - 2] == RemediationSection(remediation.value);
      if !remediation.value.Success() {
        assert m[|m| - 2].RemediationFailed?;
      }
    }
  }

  /** A refused remediation is reported as a request for a human. */
  lemma RefusalRequestsHuman(alert: Alert, v: Verdict)
    ensures RequestsHuman(FormatAlertMessage(alert, Some(v), Some(Refused)))
  {
    var m := FormatAlertMessage(alert, Some(v), Some(Refused));
    assert m[2].RemediationFailed?;
  }

  /** Evidence is cut to three items: whatever the analysis holds, the
      message shows its first min(3, n) items. */
  lemma EvidenceShownIsPrefix(alert: Alert, v: Verdict, remediation: Option<RemediationResult>)
    ensures var shown := FormatAlertMessage(alert, Some(v), remediation)[1].evidence;
            var all := v.evidence.GetOr([]);
            |shown| <= 3 && shown == all[..|shown|] && (|all| >= 3 ==> |shown| == 3)
  {
  }

  // ---------------------------------------------------------------------
  // Channels

  /** The manager's configuration: whether a Slack client was built (a
      truthy token), the channel (default "#alerts") and the webhook URL. */
  datatype NotifierConfig = NotifierConfig(slackClient: bool, channel: Json, webhookUrl: Json)

  function NewNotifier(token: Json, channel: Json, webhookUrl: Json): (n: NotifierConfig)
    ensures n.slackClient <==> Truthy(token)
    ensures Truthy(channel) ==> n.channel == channel
    ensures !Truthy(channel) ==> n.channel == JStr("#alerts")
    ensures n.webhookUrl == webhookUrl
  {
    NotifierConfig(Truthy(token), if Truthy(channel) then channel else JStr("#alerts"), webhookUrl)
  }

  /** What posting to Slack came to: posted, a Slack API error (caught), or
      any other exception (not caught by the manager). */
  datatype SlackOutcome = Posted | SlackApiError | SlackRaised(error: string)

  /** What the webhook POST came to: an HTTP status, or a request error. */
  datatype WebhookOutcome = HttpStatus(code: int) | RequestFailed(error: string)

  /** `send_slack_notification`: False without a client or on an API error,
      True once posted; other exceptions escape. */
  function SendSlack(n: NotifierConfig, outcome: SlackOutcome): (r: Result<bool>)
    ensures !n.slackClient ==> r == Ok(false)
    ensures n.slackClient ==> (r == Ok(true) <==> outcome == Posted)
    ensures n.slackClient ==> (r.Err? <==> outcome.SlackRaised?)
  {
    if !n.slackClient then Ok(false)
    else
      match outcome
      case Posted => Ok(true)
      case SlackApiError => Ok(false)
      case SlackRaised(e) => Err(e)
  }

  /** `send_webhook_notification`: True exactly when a URL is configured and
      the endpoint answered 200; never raises. */
  function SendWebhook(n: NotifierConfig, outcome: WebhookOutcome): (r: bool)
    ensures r <==> Truthy(n.webhookUrl) && outcome == HttpStatus(200)
  {
    if !Truthy(n.webhookUrl) then false
    else
      match outcome
      case HttpStatus(code) => code == 200
      case RequestFailed(_) => false
  }

  /** One line of the incident log. */
  datatype IncidentRecord = IncidentRecord(alert: Alert, analysis: Option<Verdict>, remediation: Option<RemediationResult>)

  /** `log_incident`: opens the log for appending and writes one line; on
      a write error nothing is added and it reports False. Earlier lines are
      never touched. */
  function LogIncident(log: seq<IncidentRecord>, rec: IncidentRecord, writable: bool): (r: (seq<IncidentRecord>, bool))
    ensures r.1 == writable
    ensures |r.0| == |log| + (if writable then 1 else 0)
    ensures r.0[..|log|] == log
    ensures writable ==> r.0[|log|] == rec
  {
    if writable then (log + [rec], true) else (log, false)
  }

  /** Logging appends the same line whatever the log already holds. */
  lemma LogIncidentAppends(log: seq<IncidentRecord>, rec: IncidentRecord, writable: bool)
    ensures LogIncident(log, rec, writable).0 == log + LogIncident([], rec, writable).0
  {
  }

  datatype Channel = SlackChannel | WebhookChannel | IncidentFile

  /** What the three channels of one notification come to. */
  datatype Delivery = Delivery(slack: SlackOutcome, webhook: WebhookOutcome, logWritable: bool)

  /** The per-channel booleans `send_notification` returns. */
  datatype ChannelResults = ChannelResults(slack: bool, webhook: bool, log: bool)

  /** `send_notification`'s outcome: the message it formatted, the channels
      it tried in order, and either the per-channel results with the log as
      it is afterwards, or the exception that escaped from Slack. */
  datatype NotifyOutcome =
    | Sent(message: Message, attempted: seq<Channel>, results: ChannelResults, log: seq<IncidentRecord>)
    | NotifyRaised(message: Message, attempted: seq<Channel>, error: string)

  /** `send_notification`: Slack is tried only with a client, the webhook
      only with a URL, the log always and last; a channel not tried reports
      False. An exception other than a Slack API error escapes before the
      webhook and the log are tried. */
  function SendNotification(n: NotifierConfig, log: seq<IncidentRecord>, alert: Alert, analysis: Option<Verdict>,
                            remediation: Option<RemediationResult>, d: Delivery): (r: NotifyOutcome)
    ensures r.message == FormatAlertMessage(alert, analysis, remediation)
    ensures r.Sent? <==> !(n.slackClient && d.slack.SlackRaised?)
    ensures (SlackChannel in r.attempted <==> n.slackClient) && (r.attempted != [] ==> r.attempted[0] == SlackChannel || !n.slackClient)
    ensures r.NotifyRaised? ==> r.attempted == [SlackChannel]
    ensures r.Sent? ==> r.attempted != [] && r.attempted[|r.attempted| - 1] == IncidentFile
                        && (WebhookChannel in r.attempted <==> Truthy(n.webhookUrl))
    ensures r.Sent? ==> r.results.slack == (n.slackClient && d.slack == Posted)
                        && r.results.webhook == (Truthy(n.webhookUrl) && d.webhook == HttpStatus(200))
                        && r.results.log == d.logWritable
    ensures r.Sent? ==> r.log == LogIncident(log, IncidentRecord(alert, analysis, remediation), d.logWritable).0
    ensures r.Sent? ==> r.attempted == (if n.slackClient then [SlackChannel] else [])
                                       + (if Truthy(n.webhookUrl) then [WebhookChannel] else []) + [IncidentFile]
  {
    var message := FormatAlertMessage(alert, analysis, remediation);
    var slackTried := if n.slackClient then [SlackChannel] else [];
    match SendSlack(n, d.slack)
    case Err(e) => NotifyRaised(message, slackTried, e)
    case Ok(slack) =>
      var hookTried := if Truthy(n.webhookUrl) then [WebhookChannel] else [];
      var webhook := SendWebhook(n, d.webhook);
      var (log', logged) := LogIncident(log, IncidentRecord(alert, analysis, remediation), d.logWritable);
      var attempted := slackTried + hookTried + [IncidentFile];
      assert forall c :: c in attempted <==> c in slackTried || c in hookTried || c == IncidentFile;
      Sent(message, attempted, ChannelResults(slack, webhook, logged), log')
  }

  /** What a notification sends and reports does not depend on what the
      incident log already holds; only the log it returns does. */
  lemma NotificationIgnoresLog(n: NotifierConfig, log1: seq<IncidentRecord>, log2: seq<IncidentRecord>, alert: Alert,
                               analysis: Option<Verdict>, remediation: Option<RemediationResult>, d: Delivery)
    ensures var r1 := SendNotification(n, log1, alert, analysis, remediation, d);
            var r2 := SendNotification(n, log2, alert, analysis, remediation, d);
            && r1.Sent? == r2.Sent? && r1.message == r2.message && r1.attempted == r2.attempted
            && (r1.Sent? ==> r1.results == r2.results)
            && (r1.NotifyRaised? ==> r1.error == r2.error)
  {
  }
}

=== FILE: opsbot_agent.dfy ===
/** The agent (`OpsBotAgent`): configuration loading, construction of its
    components, and the per-tick pipeline. A monitoring pass scans the
    metrics and hands every alert, in order, to `handle_alert`, which
    analyses it, optionally remediates, notifies, and, after a successful
    remediation, waits and re-checks. Each alert's visible effects are
    recorded as an ordered trace of events. Everything the collaborators
    answer during one alert is an input (`AlertWorld`). */
module OpsBot {
  import opened Common
  import opened Monitor
  import opened LlmProvider
  import opened Analyzer
  import opened Remediation
  import opened Notifier

  // ---------------------------------------------------------------------
  // Configuration

  type Config = map<string, Json>

  /** The configuration file at start-up: present (and parsed, or not
      parsable), or missing (and the default can be written, or not). */
  datatype ConfigFile = ConfigPresent(parsed: Option<Config>) | ConfigMissing(writable: bool)

  /** The configuration written and used when no file exists. */
  const DefaultConfig: Config := map[
    "prometheus_url" := JStr("http://localhost:9090"),
    "openai_api_key" := JNull,
    "slack_token" := JNull,
    "slack_channel" := JStr("#alerts"),
    "webhook_url" := JNull,
    "auto_remediation" := JBool(true),
    "monitoring_interval" := JNum(60.0),
    "cpu_threshold" := JNum(80.0),
    "memory_threshold" := JNum(85.0),
    "disk_threshold" := JNum(90.0)]

  /** `load_config`: an existing file is used as parsed, a missing one is
      replaced by the default configuration, and any error (unparsable
      file, default not writable) yields the empty configuration. */
  function LoadConfig(f: ConfigFile): (c: Config)
    ensures f.ConfigPresent? && f.parsed.Some? ==> c == f.parsed.value
    ensures f.ConfigMissing? && f.writable ==> c == DefaultConfig
    ensures (f.ConfigPresent? && f.parsed.None?) || (f.ConfigMissing? && !f.writable) ==> c == map[]
  {
    match f
    case ConfigPresent(parsed) => parsed.GetOr(map[])
    case ConfigMissing(writable) => if writable then DefaultConfig else map[]
  }

  /** `config.get(key, default)` */
  function Get(c: Config, key: string, default: Json): Json {
    if key in c then c[key] else default
  }

  // ---------------------------------------------------------------------
  // The agent

  /** What handling an alert reads from the agent: the auto-remediation
      flag and the configured components. */
  datatype Settings = Settings(
    autoRemediation: bool,
    analyzer: Provider,
    notifier: NotifierConfig,
    docker: bool)

  /** The agent's state: the monitoring flag, its settings, and the
      incident log file's lines. */
  datatype Agent = Agent(monitoringEnabled: bool, settings: Settings, incidentLog: seq<IncidentRecord>)

  /** The settings `__init__` derives from a configuration, given the
      analyser it managed to build. */
  function SettingsFrom(config: Config, analyzer: Provider, docker: bool): Settings {
    Settings(Truthy(Get(config, "auto_remediation", JBool(true))), analyzer,
             NewNotifier(Get(config, "slack_token", JNull), Get(config, "slack_channel", JNull),
                         Get(config, "webhook_url", JNull)),
             docker)
  }

  /** The constructor as written: the analyser is handed the keyword
      `openai_api_key`, which `LogAnalyzer.__init__` does not accept. */
  function NewAgentAsWritten(f: ConfigFile, docker: bool, log: seq<IncidentRecord>): (r: Result<Agent>)
    ensures r.Ok? <==> "openai_api_key" in AnalyzerKeywords
  {
    var config := LoadConfig(f);
    var analyzer :- NewLogAnalyzer(map["openai_api_key" := Get(config, "openai_api_key", JNull)]);
    Ok(Agent(true, SettingsFrom(config, analyzer, docker), log))
  }

  /** As written, constructing the agent raises a TypeError for every
      configuration, so it never starts monitoring. */
  lemma AgentAsWrittenNeverStarts(f: ConfigFile, docker: bool, log: seq<IncidentRecord>)
    ensures NewAgentAsWritten(f, docker, log).Err?
  {
    assert "openai_api_key" !in AnalyzerKeywords;
  }

  /** The constructor with the configured key passed as `api_key`: the
      analyser is the default ollama provider carrying the configured key,
      monitoring is on, auto-remediation follows `auto_remediation`
      (default True), and the notifier gets the Slack and webhook settings. */
  function NewAgent(f: ConfigFile, docker: bool, log: seq<IncidentRecord>): (a: Agent)
    ensures var config := LoadConfig(f);
            && a.monitoringEnabled
            && a.settings.autoRemediation == Truthy(Get(config, "auto_remediation", JBool(true)))
            && a.settings.analyzer == Provider("ollama", Get(config, "openai_api_key", JNull), "llama2")
            && a.settings.notifier == NewNotifier(Get(config, "slack_token", JNull), Get(config, "slack_channel", JNull),
                                                  Get(config, "webhook_url", JNull))
            && a.settings.docker == docker
            && a.incidentLog == log
  {
    var config := LoadConfig(f);
    var analyzer := NewLogAnalyzer(map["api_key" := Get(config, "openai_api_key", JNull)]);
    assert analyzer.Ok?;
    assert Lower("ollama") == "ollama";
    Agent(true, SettingsFrom(config, analyzer.value, docker), log)
  }

  /** Auto-remediation is on unless a readable configuration file sets
      `auto_remediation` to a false value: a missing file, an unreadable one
      and one without the key all leave it on. */
  lemma AutoRemediationDefaultsOn(f: ConfigFile, docker: bool, log: seq<IncidentRecord>)
    ensures NewAgent(f, docker, log).settings.autoRemediation <==>
              !(f.ConfigPresent? && f.parsed.Some? && "auto_remediation" in f.parsed.value
                && !Truthy(f.parsed.value["auto_remediation"]))
  {
  }

  /** `stop_monitoring` */
  function StopMonitoring(a: Agent): (b: Agent)
    ensures !b.monitoringEnabled
    ensures b.settings == a.settings && b.incidentLog == a.incidentLog
  {
    a.(monitoringEnabled := false)
  }

  // ---------------------------------------------------------------------
  // Handling one alert

  /** The seconds `handle_alert` waits before re-checking. */
  const StabilisationSeconds: nat := 30

  /** What the collaborators come to while one alert is handled. */
  datatype AlertWorld = AlertWorld(
    logs: string,                       // the combined journal, Docker and process logs
    backend: LlmCall -> QueryOutcome,   // the language-model backend
    remediation: RemediationEnv,        // Docker, ps, kill and cleanup commands
    delivery: Delivery,                 // Slack, webhook and log file for the notification
    freshProbe: Probe,                  // the metric queries after the wait
    recheckedAt: string,                // the time of the re-check
    verifySlack: SlackOutcome)          // Slack for the verification message

  /** The visible effects of handling an alert. */
  datatype Event =
    | Analysed(verdict: Verdict, call: Option<LlmCall>)
    | Remediated(result: RemediationResult)
    | Notified(message: Message, attempted: seq<Channel>, results: Option<ChannelResults>)
    | Aborted(error: string)
    | Stabilising(seconds: nat)
    | Verified(kind: AlertKind, resolved: bool, delivered: bool)

  /** Whether some alert of class `k` is in the list (the early-exit loop of
      `verify_remediation`). */
  function StillAlerting(alerts: seq<Alert>, k: AlertKind): (r: bool)
    ensures r <==> exists b :: b in alerts && b.kind == k
    decreases |alerts|
  {
    if alerts == [] then false
    else if alerts[0].kind == k then true
    else
      assert forall b :: b in alerts ==> b == alerts[0] || b in alerts[1..];
      StillAlerting(alerts[1..], k)
  }

  /** `verify_remediation`: re-scan the metrics; the alert is resolved
      exactly when no fresh alert has its class, that is exactly when the
      fresh reading is at most the threshold. One Slack message reports the
      verdict either way; it is delivered only with a client and a
      successful post, and no failure escapes. */
  function VerifyRemediation(n: NotifierConfig, original: Alert, recheck: Probe, now: string, slack: SlackOutcome): (e: Event)
    ensures e.Verified? && e.kind == original.kind
    ensures e.resolved <==> forall b :: b in Scan(recheck, now) ==> b.kind != original.kind
    ensures e.resolved <==> Read(recheck).Of(original.kind) <= Threshold(original.kind)
    ensures e.delivered <==> n.slackClient && slack == Posted
  {
    var resolved := !StillAlerting(Scan(recheck, now), original.kind);
    var delivered := match SendSlack(n, slack) case Ok(b) => b case Err(_) => false;
    Verified(original.kind, resolved, delivered)
  }

  /** A re-check against unreachable metrics reports the alert resolved:
      the readings fall back to 0.0, below every threshold. */
  lemma UnreachableRecheckReportsResolved(n: NotifierConfig, original: Alert, recheck: Probe, now: string, slack: SlackOutcome)
    requires Unreachable(recheck.Query(original.kind))
    ensures VerifyRemediation(n, original, recheck, now, slack).resolved
  {
    UnreachableMetricIsSilent(recheck, now, original.kind);
  }

  /** The remediation step of `handle_alert`: skipped (no result) when
      auto-remediation is off; otherwise the engine's result or exception. */
  function RemediationStep(s: Settings, v: Verdict, env: RemediationEnv): (r: Result<Option<RemediationResult>>)
    ensures !s.autoRemediation ==> r == Ok(None)
    ensures s.autoRemediation ==> (r.Err? <==> ExecuteRemediation(s.docker, v, env).Err?)
    ensures s.autoRemediation && r.Ok? ==> r.value == Some(ExecuteRemediation(s.docker, v, env).value)
  {
    if !s.autoRemediation then Ok(None)
    else
      match ExecuteRemediation(s.docker, v, env)
      case Ok(res) => Ok(Some(res))
      case Err(e) => Err(e)
  }

  /** The events of one alert from its parts: the analysis, the remediation
      step, the notification and the re-check. A raising remediation ends
      the alert before anything is sent; a raising notification ends it
      right after; otherwise the re-check follows a successful remediation
      only. */
  function Trace(first: Event, step: Result<Option<RemediationResult>>, sent: NotifyOutcome, check: Event): (t: seq<Event>)
    ensures |t| >= 2 && t[0] == first
  {
    match step
    case Err(e) => [first, Aborted(e)]
    case Ok(res) =>
      var remediated := if res.Some? then [Remediated(res.value)] else [];
      match sent
      case NotifyRaised(message, attempted, e) =>
        [first] + remediated + [Notified(message, attempted, None), Aborted(e)]
      case Sent(message, attempted, results, _) =>
        [first] + remediated + [Notified(message, attempted, Some(results))]
        + (if res.Some? && res.value.Success() then [Stabilising(StabilisationSeconds), check] else [])
  }

  /** The notification event a notification outcome leaves in the trace. */
  function NotifiedEvent(sent: NotifyOutcome): Event {
    Notified(sent.message, sent.attempted, if sent.Sent? then Some(sent.results) else None)
  }

  /** The five shapes a trace can have. */
  lemma TraceShapes(first: Event, step: Result<Option<RemediationResult>>, sent: NotifyOutcome, check: Event)
    ensures var t, n := Trace(first, step, sent, check), NotifiedEvent(sent);
            && (step.Err? ==> t == [first, Aborted(step.error)])
            && (step.Ok? && step.value.None? && sent.NotifyRaised? ==> t == [first, n, Aborted(sent.error)])
            && (step.Ok? && step.value.None? && sent.Sent? ==> t == [first, n])
            && (step.Ok? && step.value.Some? && sent.NotifyRaised? ==>
                  t == [first, Remediated(step.value.value), n, Aborted(sent.error)])
            && (step.Ok? && step.value.Some? && sent.Sent? && !step.value.value.Success() ==>
                  t == [first, Remediated(step.value.value), n])
            && (step.Ok? && step.value.Some? && sent.Sent? && step.value.value.Success() ==>
                  t == [first, Remediated(step.value.value), n, Stabilising(StabilisationSeconds), check])
  {
  }

  /** The notification in a trace: never first, at most once, present
      exactly when remediation did not raise, and carrying what the
      notifier formatted, tried and (when nothing escaped) reported. */
  lemma {:induction false} TraceNotification(first: Event, step: Result<Option<RemediationResult>>, sent: NotifyOutcome, check: Event)
    requires first.Analysed? && check.Verified?
    ensures var t := Trace(first, step, sent, check);
            && (forall i :: 1 <= i < |t| ==> !t[i].Analysed?)
            && (forall i, j :: 0 <= i < |t| && 0 <= j < |t| && t[i].Notified? && t[j].Notified? ==> i == j)
            && ((exists i :: 0 <= i < |t| && t[i].Notified?) <==> step.Ok?)
            && (forall i :: 0 <= i < |t| && t[i].Notified? ==> t[i] == NotifiedEvent(sent))
  {
    var t := Trace(first, step, sent, check);
    TraceShapes(first, step, sent, check);
    if step.Ok? {
      assert t[1].Notified? || t[2].Notified?;
    }
  }

  /** The remediation in a trace: present exactly when the step produced a
      result, carrying that result, and before any notification. */
  lemma {:induction false} TraceRemediation(first: Event, step: Result<Option<RemediationResult>>, sent: NotifyOutcome, check: Event)
    requires first.Analysed? && check.Verified?
    ensures var t := Trace(first, step, sent, check);
            && ((exists i :: 0 <= i < |t| && t[i].Remediated?) <==> step.Ok? && step.value.Some?)
            && (forall i :: 0 <= i < |t| && t[i].Remediated? ==> i == 1 && t[i].result == step.value.value)
            && (forall i, j :: 0 <= i < |t| && 0 <= j < |t| && t[i].Remediated? && t[j].Notified? ==> i < j)
  {
    var t := Trace(first, step, sent, check);
    TraceShapes(first, step, sent, check);
    if step.Ok? && step.value.Some? {
      assert t[1].Remediated?;
    }
  }

  /** The only verification event a trace can hold is the re-check. */
  lemma TraceVerifiedIsCheck(first: Event, step: Result<Option<RemediationResult>>, sent: NotifyOutcome, check: Event)
    requires first.Analysed?
    ensures var t := Trace(first, step, sent, check);
            forall i :: 0 <= i < |t| && t[i].Verified? ==> t[i] == check
  {
  }

  /** The re-check in a trace: present exactly when a remediation succeeded
      and its notification went out, and then the last event, right after
      the wait, which comes right after the notification. */
  lemma {:induction false} TraceVerification(first: Event, step: Result<Option<RemediationResult>>, sent: NotifyOutcome, check: Event)
    requires first.Analysed? && check.Verified?
    ensures var t := Trace(first, step, sent, check);
            && ((exists i :: 0 <= i < |t| && t[i].Verified?) <==>
                  step.Ok? && step.value.Some? && step.value.value.Success() && sent.Sent?)
            && ((exists i :: 0 <= i < |t| && t[i].Verified?) <==>
                  (exists i :: 0 <= i < |t| && t[i].Remediated? && t[i].result.Success())
                  && (exists j :: 0 <= j < |t| && t[j].Notified? && t[j].results.Some?))
            && (forall i :: 0 <= i < |t| && t[i].Verified? ==>
                  && i == |t| - 1 && i >= 2 && t[i] == check
                  && t[i - 1] == Stabilising(StabilisationSeconds) && t[i - 2].Notified?)
  {
    var t := Trace(first, step, sent, check);
    TraceShapes(first, step, sent, check);
    if step.Ok? && step.value.Some? && step.value.value.Success() && sent.Sent? {
      assert t[4].Verified? && t[1].result.Success() && t[2].results.Some?;
    }
  }

  // The parts of one alert's handling, each as `handle_alert` computes it.

  /** The analysis of the alert; a diagnosis that could not be obtained is
      the fallback verdict, which the remediation gate refuses. */
  function Diagnosis(s: Settings, alert: Alert, w: AlertWorld): (a: Analysis)
    ensures a.verdict.alertData == Some(alert)
    ensures FellBack(s, alert, w) ==> a.verdict == Fallback(alert.kind.Name()).(alertData := Some(alert))
    ensures FellBack(s, alert, w) ==> NeedsHuman(a.verdict)
  {
    AnalyzeIncident(s.analyzer, alert, w.logs, w.backend)
  }

  /** The diagnosis fell back: the provider was not queried, or its query
      raised. */
  predicate FellBack(s: Settings, alert: Alert, w: AlertWorld) {
    var p := s.analyzer;
    !Queries(p) || w.backend(LlmCall(p.name, p.model, Prompt(w.logs, alert.kind.Name()))).QueryRaised?
  }

  function Step(s: Settings, alert: Alert, w: AlertWorld): (r: Result<Option<RemediationResult>>)
    ensures NeedsHuman(Diagnosis(s, alert, w).verdict) ==> r == Ok(if s.autoRemediation then Some(Refused) else None)
  {
    RemediationStep(s, Diagnosis(s, alert, w).verdict, w.remediation)
  }

  /** The remediation result handed to the notifier (None when skipped). */
  function Outcome(s: Settings, alert: Alert, w: AlertWorld): Option<RemediationResult> {
    if Step(s, alert, w).Ok? then Step(s, alert, w).value else None
  }

  function Notification(s: Settings, log: seq<IncidentRecord>, alert: Alert, w: AlertWorld): (n: NotifyOutcome)
    ensures n.message == FormatAlertMessage(alert, Some(Diagnosis(s, alert, w).verdict), Outcome(s, alert, w))
    ensures n.Sent? ==> |log| <= |n.log| <= |log| + 1 && n.log[..|log|] == log
    ensures n.Sent? ==> n.log == LogIncident(log, IncidentRecord(alert, Some(Diagnosis(s, alert, w).verdict), Outcome(s, alert, w)),
                                             w.delivery.logWritable).0
  {
    SendNotification(s.notifier, log, alert, Some(Diagnosis(s, alert, w).verdict), Outcome(s, alert, w), w.delivery)
  }

  function Recheck(s: Settings, alert: Alert, w: AlertWorld): (e: Event)
    ensures e.Verified? && e.kind == alert.kind
    ensures e.resolved <==> Read(w.freshProbe).Of(alert.kind) <= Threshold(alert.kind)
  {
    VerifyRemediation(s.notifier, alert, w.freshProbe, w.recheckedAt, w.verifySlack)
  }

  /** The incident log after one alert, with the alert's trace. */
  datatype Handled = Handled(log: seq<IncidentRecord>, events: seq<Event>)

  /** `handle_alert`: analyse; remediate when enabled; notify once; and,
      after a successful remediation, wait and verify. An exception (from
      listing containers, or from Slack) is caught here and ends the
      alert's handling. Only a notification that went out touches the
      incident log, and only by appending. (The notification and the
      re-check are computed unconditionally here; `Trace` keeps them only
      where they happen.) */
  function HandleAlert(s: Settings, log: seq<IncidentRecord>, alert: Alert, w: AlertWorld): (h: Handled)
    ensures h.events != [] && h.events[0].Analysed? && h.events[0].verdict.alertData == Some(alert)
    ensures h.events[0] == Analysed(Diagnosis(s, alert, w).verdict, Diagnosis(s, alert, w).call)
    ensures |log| <= |h.log| <= |log| + 1
    ensures h.log[..|log|] == log
    ensures h.log == if !RemediationRaised(s, alert, w) && Notification(s, log, alert, w).Sent?
                     then Notification(s, log, alert, w).log else log
  {
    var sent := Notification(s, log, alert, w);
    Handled(if Step(s, alert, w).Ok? && sent.Sent? then sent.log else log,
            Trace(Analysed(Diagnosis(s, alert, w).verdict, Diagnosis(s, alert, w).call), Step(s, alert, w), sent, Recheck(s, alert, w)))
  }

  /** Whether the engine raised during this alert. */
  predicate RemediationRaised(s: Settings, alert: Alert, w: AlertWorld) {
    Step(s, alert, w).Err?
  }

  /** The notification of `handle_alert`: it happens exactly once unless the
      engine raised first; it comes after the analysis and after the
      remediation; a remediation happens exactly when auto-remediation is
      on (and the engine did not raise); and with auto-remediation off the
      message has no remediation section. */
  lemma NotifiedOnceAfterRemediation(s: Settings, log: seq<IncidentRecord>, alert: Alert, w: AlertWorld)
    ensures var t := HandleAlert(s, log, alert, w).events;
            && (forall i, j :: 0 <= i < |t| && 0 <= j < |t| && t[i].Notified? && t[j].Notified? ==> i == j)
            && ((exists i :: 0 <= i < |t| && t[i].Notified?) <==> !RemediationRaised(s, alert, w))
            && ((exists i :: 0 <= i < |t| && t[i].Remediated?) <==> s.autoRemediation && !RemediationRaised(s, alert, w))
            && (forall i, j :: 0 <= i < |t| && 0 <= j < |t| && t[i].Remediated? && t[j].Notified? ==> i < j)
            && (forall i :: 0 <= i < |t| && t[i].Notified? ==> 0 < i)
            && (!s.autoRemediation ==> forall i :: 0 <= i < |t| && t[i].Notified? ==> !HasRemediationSection(t[i].message))
  {
    var d := Diagnosis(s, alert, w);
    var first, step, sent, check := Analysed(d.verdict, d.call), Step(s, alert, w), Notification(s, log, alert, w), Recheck(s, alert, w);
    TraceNotification(first, step, sent, check);
    TraceRemediation(first, step, sent, check);
    MessageSections(alert, Some(d.verdict), Outcome(s, alert, w));
  }

  /** Verification happens exactly when a remediation succeeded and its
      notification went out; it is the last event, right after the wait,
      which comes right after the notification. */
  lemma VerificationOnlyAfterSuccess(s: Settings, log: seq<IncidentRecord>, alert: Alert, w: AlertWorld)
    ensures var t := HandleAlert(s, log, alert, w).events;
            && ((exists i :: 0 <= i < |t| && t[i].Verified?) <==>
                  (exists i :: 0 <= i < |t| && t[i].Remediated? && t[i].result.Success())
                  && (exists j :: 0 <= j < |t| && t[j].Notified? && t[j].results.Some?))
            && (forall i :: 0 <= i < |t| && t[i].Verified? ==>
                  && i == |t| - 1 && i >= 2
                  && t[i - 1] == Stabilising(StabilisationSeconds)
                  && t[i - 2].Notified?)
  {
    VerificationWhenSucceeded(s, log, alert, w);
    VerificationIsLast(s, log, alert, w);
  }

  /** The first half: when verification happens. */
  lemma VerificationWhenSucceeded(s: Settings, log: seq<IncidentRecord>, alert: Alert, w: AlertWorld)
    ensures var t := HandleAlert(s, log, alert, w).events;
            (exists i :: 0 <= i < |t| && t[i].Verified?) <==>
              (exists i :: 0 <= i < |t| && t[i].Remediated? && t[i].result.Success())
              && (exists j :: 0 <= j < |t| && t[j].Notified? && t[j].results.Some?)
  {
    var d := Diagnosis(s, alert, w);
    TraceVerification(Analysed(d.verdict, d.call), Step(s, alert, w), Notification(s, log, alert, w), Recheck(s, alert, w));
  }

  /** The second half: where the verification sits in the trace. */
  lemma VerificationIsLast(s: Settings, log: seq<IncidentRecord>, alert: Alert, w: AlertWorld)
    ensures var t := HandleAlert(s, log, alert, w).events;
            forall i :: 0 <= i < |t| && t[i].Verified? ==>
              && i == |t| - 1 && i >= 2
              && t[i - 1] == Stabilising(StabilisationSeconds)
              && t[i - 2].Notified?
  {
    var d := Diagnosis(s, alert, w);
    TraceVerification(Analysed(d.verdict, d.call), Step(s, alert, w), Notification(s, log, alert, w), Recheck(s, alert, w));
  }

  /** The verification re-checks the alert's own class and reports it
      resolved exactly when the fresh reading is at most the threshold. */
  lemma VerificationJudgesFreshReading(s: Settings, log: seq<IncidentRecord>, alert: Alert, w: AlertWorld)
    ensures var t := HandleAlert(s, log, alert, w).events;
            forall i :: 0 <= i < |t| && t[i].Verified? ==>
              && t[i].kind == alert.kind
              && (t[i].resolved <==> Read(w.freshProbe).Of(alert.kind) <= Threshold(alert.kind))
  {
    var d := Diagnosis(s, alert, w);
    TraceVerifiedIsCheck(Analysed(d.verdict, d.call), Step(s, alert, w), Notification(s, log, alert, w), Recheck(s, alert, w));
  }

  /** A diagnosis that fell back (unknown provider, missing key, failed
      query) never leads to an automated action: any remediation event is
      a refusal, so no primitive runs, and nothing is verified. */
  lemma FallbackNeverRemediates(s: Settings, log: seq<IncidentRecord>, alert: Alert, w: AlertWorld)
    requires FellBack(s, alert, w)
    ensures var t := HandleAlert(s, log, alert, w).events;
            && (forall i :: 0 <= i < |t| && t[i].Remediated? ==> t[i].result == Refused)
            && (forall i :: 0 <= i < |t| ==> !t[i].Verified?)
  {
    var d := Diagnosis(s, alert, w);
    var first, step, sent, check := Analysed(d.verdict, d.call), Step(s, alert, w), Notification(s, log, alert, w), Recheck(s, alert, w);
    TraceRemediation(first, step, sent, check);
    TraceVerification(first, step, sent, check);
  }

  /** With auto-remediation on, the notification after a fallen-back
      diagnosis asks for a human. */
  lemma FallbackAsksForHuman(s: Settings, log: seq<IncidentRecord>, alert: Alert, w: AlertWorld)
    requires FellBack(s, alert, w) && s.autoRemediation
    ensures var t := HandleAlert(s, log, alert, w).events;
            forall i :: 0 <= i < |t| && t[i].Notified? ==> RequestsHuman(t[i].message)
  {
    var d := Diagnosis(s, alert, w);
    TraceNotification(Analysed(d.verdict, d.call), Step(s, alert, w), Notification(s, log, alert, w), Recheck(s, alert, w));
    RefusalRequestsHuman(alert, d.verdict);
  }

  /** An alert's trace does not depend on what the incident log already
      holds. */
  lemma TraceIgnoresLog(s: Settings, log1: seq<IncidentRecord>, log2: seq<IncidentRecord>, alert: Alert, w: AlertWorld)
    ensures HandleAlert(s, log1, alert, w).events == HandleAlert(s, log2, alert, w).events
  {
    NotificationIgnoresLog(s.notifier, log1, log2, alert, Some(Diagnosis(s, alert, w).verdict),
                           Outcome(s, alert, w), w.delivery);
  }

  // ---------------------------------------------------------------------
  // One monitoring pass

  /** What one scheduled pass sees: the metric queries, the time, and the
      collaborators' answers while the i-th alert is handled. */
  datatype Tick = Tick(probe: Probe, now: string, worlds: nat -> AlertWorld)

  /** One handled alert and its trace. */
  datatype Incident = Incident(alert: Alert, events: seq<Event>)

  /** A per-alert handler as `monitor_system` relies on it: the trace it
      leaves does not depend on the incident log, and it changes the log
      only by appending at most one line, the same line whatever the log
      held before. */
  ghost predicate WellBehaved(handle: (seq<IncidentRecord>, Alert, AlertWorld) -> Handled) {
    && (forall l1, l2, al, w :: handle(l1, al, w).events == handle(l2, al, w).events)
    && (forall l, al, w :: handle(l, al, w).log == l + handle([], al, w).log)
    && (forall al, w :: |handle([], al, w).log| <= 1)
  }

  /** `handle_alert` for fixed settings, as the pass calls it. */
  function Handler(s: Settings): (seq<IncidentRecord>, Alert, AlertWorld) -> Handled {
    (l, al, w) => HandleAlert(s, l, al, w)
  }

  /** An alert adds the same lines to any log: its own record, when the
      engine did not raise, the notification went out and the log is
      writable. */
  lemma HandleAlertAppends(s: Settings, log: seq<IncidentRecord>, alert: Alert, w: AlertWorld)
    ensures HandleAlert(s, log, alert, w).log == log + HandleAlert(s, [], alert, w).log
  {
    var rec := IncidentRecord(alert, Some(Diagnosis(s, alert, w).verdict), Outcome(s, alert, w));
    NotificationIgnoresLog(s.notifier, log, [], alert, Some(Diagnosis(s, alert, w).verdict),
                           Outcome(s, alert, w), w.delivery);
    LogIncidentAppends(log, rec, w.delivery.logWritable);
  }

  /** `handle_alert` is such a handler for any settings. */
  lemma HandleAlertWellBehaved(s: Settings)
    ensures WellBehaved(Handler(s))
  {
    forall l1, l2, al, w
      ensures HandleAlert(s, l1, al, w).events == HandleAlert(s, l2, al, w).events
    {
      TraceIgnoresLog(s, l1, l2, al, w);
    }
    forall l, al, w
      ensures HandleAlert(s, l, al, w).log == l + HandleAlert(s, [], al, w).log
    {
      HandleAlertAppends(s, l, al, w);
    }
    forall al, w
      ensures |HandleAlert(s, [], al, w).log| <= 1
    {
    }
  }

  /** The lines the alerts add to the log, alert after alert, each as it
      would add them on its own. */
  function Appended(handle: (seq<IncidentRecord>, Alert, AlertWorld) -> Handled, alerts: seq<Alert>,
                    worlds: nat -> AlertWorld, from: nat): seq<IncidentRecord>
    decreases |alerts|
  {
    if alerts == [] then []
    else handle([], alerts[0], worlds(from)).log + Appended(handle, alerts[1..], worlds, from + 1)
  }

  /** The loop of `monitor_system`: handle `alerts` in order, threading the
      incident log; the i-th alert sees `worlds(from + i)`. Each alert gets
      the trace it would have on its own, whatever the earlier alerts wrote
      to the log, and the log grows by at most one line per alert. */
  function HandleAll(handle: (seq<IncidentRecord>, Alert, AlertWorld) -> Handled, log: seq<IncidentRecord>,
                     alerts: seq<Alert>, worlds: nat -> AlertWorld, from: nat): (r: (seq<IncidentRecord>, seq<Incident>))
    requires WellBehaved(handle)
    ensures |r.1| == |alerts|
    ensures forall i :: 0 <= i < |alerts| ==> r.1[i] == Incident(alerts[i], handle(log, alerts[i], worlds(from + i)).events)
    ensures |log| <= |r.0| <= |log| + |alerts|
    ensures r.0[..|log|] == log
    ensures r.0 == log + Appended(handle, alerts, worlds, from)
    decreases |alerts|
  {
    if alerts == [] then
      assert log + [] == log;
      (log, [])
    else
      var h := handle(log, alerts[0], worlds(from));
      var rest := HandleAll(handle, h.log, alerts[1..], worlds, from + 1);
      var incidents := [Incident(alerts[0], h.events)] + rest.1;
      TracesStep(handle, log, h.log, alerts, worlds, from, rest.1);
      AppendedStep(handle, log, alerts, worlds, from, h.log, rest.0);
      AppendedLength(handle, alerts, worlds, from);
      assert rest.0[..|log|] == log;
      (rest.0, incidents)
  }

  /** The first alert's trace followed by the later alerts' traces, each
      seen against the log the first alert left, are the traces each alert
      has against the original log. */
  lemma TracesStep(handle: (seq<IncidentRecord>, Alert, AlertWorld) -> Handled, log: seq<IncidentRecord>,
                   first: seq<IncidentRecord>, alerts: seq<Alert>, worlds: nat -> AlertWorld, from: nat,
                   later: seq<Incident>)
    requires forall l1, l2, al, w :: handle(l1, al, w).events == handle(l2, al, w).events
    requires alerts != [] && |later| == |alerts| - 1
    requires forall i :: 0 <= i < |alerts[1..]| ==>
               later[i] == Incident(alerts[1..][i], handle(first, alerts[1..][i], worlds(from + 1 + i)).events)
    ensures var incidents := [Incident(alerts[0], handle(log, alerts[0], worlds(from)).events)] + later;
            forall i :: 0 <= i < |alerts| ==>
              incidents[i] == Incident(alerts[i], handle(log, alerts[i], worlds(from + i)).events)
  {
    var incidents := [Incident(alerts[0], handle(log, alerts[0], worlds(from)).events)] + later;
    forall i | 1 <= i < |alerts|
      ensures incidents[i] == Incident(alerts[i], handle(log, alerts[i], worlds(from + i)).events)
    {
      assert incidents[i] == later[i - 1];
      assert alerts[1..][i - 1] == alerts[i];
    }
  }

  /** The log after the first alert, extended by the later alerts' lines,
      is the log extended by every alert's lines. */
  lemma AppendedStep(handle: (seq<IncidentRecord>, Alert, AlertWorld) -> Handled, log: seq<IncidentRecord>,
                     alerts: seq<Alert>, worlds: nat -> AlertWorld, from: nat,
                     first: seq<IncidentRecord>, all: seq<IncidentRecord>)
    requires alerts != []
    requires first == log + handle([], alerts[0], worlds(from)).log
    requires all == first + Appended(handle, alerts[1..], worlds, from + 1)
    ensures all == log + Appended(handle, alerts, worlds, from)
  {
    var mine := handle([], alerts[0], worlds(from)).log;
    var later := Appended(handle, alerts[1..], worlds, from + 1);
    assert (log + mine) + later == log + (mine + later);
  }

  /** A well-behaved handler adds at most one line per alert. */
  lemma {:induction false} AppendedLength(handle: (seq<IncidentRecord>, Alert, AlertWorld) -> Handled,
                                          alerts: seq<Alert>, worlds: nat -> AlertWorld, from: nat)
    requires WellBehaved(handle)
    ensures |Appended(handle, alerts, worlds, from)| <= |alerts|
    decreases |alerts|
  {
    if alerts != [] {
      AppendedLength(handle, alerts[1..], worlds, from + 1);
    }
  }

  /** Being a prefix is transitive. */
  lemma PrefixOfPrefix<T>(x: seq<T>, y: seq<T>, z: seq<T>)
    requires |x| <= |y| <= |z| && y[..|x|] == x && z[..|y|] == y
    ensures z[..|x|] == x
  {
    assert z[..|x|] == z[..|y|][..|x|];
  }

  /** `monitor_system`: nothing at all while monitoring is stopped;
      otherwise every alert of the scan, in scan order, is handled, each
      with its own full trace, so a failure while handling one alert never
      keeps the later ones from being handled. The incident log only grows,
      by at most one line per alert; nothing else about the agent changes. */
  function MonitorSystem(a: Agent, tick: Tick): (r: (Agent, seq<Incident>))
    ensures !a.monitoringEnabled ==> r == (a, [])
    ensures a.monitoringEnabled ==>
              var alerts := Scan(tick.probe, tick.now);
              && |r.1| == |alerts|
              && forall i :: 0 <= i < |alerts| ==>
                   r.1[i] == Incident(alerts[i], HandleAlert(a.settings, a.incidentLog, alerts[i], tick.worlds(i)).events)
    ensures r.0.monitoringEnabled == a.monitoringEnabled && r.0.settings == a.settings
    ensures |a.incidentLog| <= |r.0.incidentLog| <= |a.incidentLog| + 4
    ensures r.0.incidentLog[..|a.incidentLog|] == a.incidentLog
    ensures a.monitoringEnabled ==>
              r.0.incidentLog == a.incidentLog + Appended(Handler(a.settings), Scan(tick.probe, tick.now), tick.worlds, 0)
  {
    if !a.monitoringEnabled then (a, [])
    else
      var handle := Handler(a.settings);
      HandleAlertWellBehaved(a.settings);
      var (log, incidents) := HandleAll(handle, a.incidentLog, Scan(tick.probe, tick.now), tick.worlds, 0);
      (a.(incidentLog := log), incidents)
  }

  /** Once stopped, the agent does nothing on any later pass. */
  lemma StoppedAgentIsIdle(a: Agent, tick: Tick)
    ensures MonitorSystem(StopMonitoring(a), tick) == (StopMonitoring(a), [])
  {
  }

  /** A pass of a monitoring agent handles exactly the alerts of the scan,
      whatever the agent's settings. */
  lemma PassHandlesScan(a: Agent, tick: Tick)
    requires a.monitoringEnabled
    ensures var r := MonitorSystem(a, tick).1;
            && |r| == |Scan(tick.probe, tick.now)|
            && forall i :: 0 <= i < |r| ==> r[i].alert == Scan(tick.probe, tick.now)[i]
  {
  }

  /** The thresholds in the configuration never reach the monitor: whatever
      two configuration files say (a `cpu_threshold` of 50, say), agents
      built from them handle the same alerts, in the same order, on the
      same pass, and those are the alerts of the fixed-threshold scan. */
  lemma ConfiguredThresholdsIgnored(f1: ConfigFile, f2: ConfigFile, docker: bool, log: seq<IncidentRecord>, tick: Tick)
    ensures var r1 := MonitorSystem(NewAgent(f1, docker, log), tick).1;
            var r2 := MonitorSystem(NewAgent(f2, docker, log), tick).1;
            && |r1| == |r2| == |Scan(tick.probe, tick.now)|
            && forall i :: 0 <= i < |r1| ==> r1[i].alert == r2[i].alert == Scan(tick.probe, tick.now)[i]
  {
    PassHandlesScan(NewAgent(f1, docker, log), tick);
    PassHandlesScan(NewAgent(f2, docker, log), tick);
  }
}

=== FILE: remediation.dfy ===
/** The remediation engine (`RemediationEngine`): the result contract of each
    remediation primitive, the protected-process filter of the CPU kill
    sweep, and `execute_remediation`, which gates on the verdict, picks the
    primitives for the alert class, runs them in order and aggregates the
    outcome. Docker, systemctl, ps and kill are collaborators: what each call
    came to is an input. */
module Remediation {
  import opened Common
  import opened Monitor
  import opened LlmProvider

  /** A line of the high-CPU process listing: pid and command. */
  datatype Process = Process(pid: string, name: string)

  /** Which primitive produced a step result, with what it did. For the kill
      sweep, `signalled` is every process a kill was sent to and `killed`
      those whose kill succeeded. */
  datatype StepKind =
    | ContainerRestart(container: string)
    | ServiceRestart(service: string)
    | ProcessKill(signalled: seq<Process>, killed: seq<Process>)
    | DiskCleanup(actionsTaken: seq<string>)

  /** One primitive's result dictionary: `success`, `message` and the
      primitive's own record. */
  datatype StepResult = StepResult(success: bool, message: string, kind: StepKind)

  // ---------------------------------------------------------------------
  // restart_docker_container

  /** What restarting a container came to: not found, some other Docker
      error, or a restart after which `reload()` showed this status. */
  datatype ContainerOutcome = ContainerNotFound | ContainerError(error: string) | Restarted(status: string)

  /** `restart_docker_container`: succeeds exactly when a Docker client
      exists and the container's status after restart and reload is
      "running"; every other path is a failed result, never an exception. */
  function RestartContainer(docker: bool, name: string, outcome: ContainerOutcome): (r: StepResult)
    ensures r.kind == ContainerRestart(name)
    ensures r.success <==> docker && outcome == Restarted("running")
  {
    var kind := ContainerRestart(name);
    if !docker then StepResult(false, "Docker client not available", kind)
    else
      match outcome
      case ContainerNotFound => StepResult(false, "Container " + name + " not found", kind)
      case ContainerError(e) => StepResult(false, "Error restarting container: " + e, kind)
      case Restarted(status) =>
        if status == "running" then StepResult(true, "Container " + name + " restarted successfully", kind)
        else StepResult(false, "Container " + name + " failed to start after restart", kind)
  }

  // ---------------------------------------------------------------------
  // restart_system_service

  /** What the stop/start/is-active sequence came to: the text `is-active`
      printed, or an exception from running the commands. */
  datatype ServiceOutcome = StatusPrinted(stdout: string) | ServiceRaised(error: string)

  /** `restart_system_service`: succeeds exactly when `systemctl is-active`
      printed "active" (surrounding whitespace ignored). */
  function RestartSystemService(name: string, outcome: ServiceOutcome): (r: StepResult)
    ensures r.kind == ServiceRestart(name)
    ensures r.success <==> outcome.StatusPrinted? && Strip(outcome.stdout) == "active"
  {
    var kind := ServiceRestart(name);
    match outcome
    case ServiceRaised(e) => StepResult(false, "Error restarting service: " + e, kind)
    case StatusPrinted(out) =>
      if Strip(out) == "active" then StepResult(true, "Service " + name + " restarted successfully", kind)
      else StepResult(false, "Service " + name + " failed to start", kind)
  }

  /** `is-active` ends its answer with a newline, and that does not matter;
      "inactive" is not "active". */
  lemma ServiceStatusReading(name: string)
    ensures RestartSystemService(name, StatusPrinted("active\n")).success
    ensures !RestartSystemService(name, StatusPrinted("inactive\n")).success
  {
    StripDropsFinalNewline("active");
    StripDropsFinalNewline("inactive");
  }

  lemma StripDropsFinalNewline(w: string)
    requires w != [] && !IsSpace(w[0]) && !IsSpace(w[|w| - 1])
    ensures Strip(w + "\n") == w
  {
    var s := w + "\n";
    assert TrimStart(s) == s;
    assert s[..|s| - 1] == w;
    assert TrimEnd(s) == TrimEnd(w);
  }

  // ---------------------------------------------------------------------
  // kill_high_cpu_processes

  /** What running the `ps | awk | head -5` pipeline came to. */
  datatype ProcessListing = Listed(stdout: string) | ListingRaised(error: string)

  /** What `kill -9 <pid>` came to: accepted, a non-zero exit (caught and
      skipped), or any other exception (which aborts the sweep). */
  datatype KillOutcome = Signalled | KillRefused | KillRaised(error: string)

  /** Name fragments that mark a process as critical. */
  const ProtectedFragments: seq<string> := ["systemd", "kernel", "init"]

  /** A process the sweep must never signal: its lower-cased name contains
      one of the protected fragments. */
  predicate IsProtected(name: string) {
    exists f :: f in ProtectedFragments && Contains(Lower(name), f)
  }

  /** `line.split(' ', 1)` read as pid and name: present exactly when the
      line has a space, cut at the first one. */
  function ParseLine(line: string): (r: Option<Process>)
    ensures r.Some? <==> ' ' in line
    ensures r.Some? ==> line == r.value.pid + " " + r.value.name && ' ' !in r.value.pid
  {
    if |line| == 0 then None
    else if line[0] == ' ' then Some(Process("", line[1..]))
    else
      match ParseLine(line[1..])
      case None => None
      case Some(p) =>
        assert line == [line[0]] + line[1..];
        Some(Process([line[0]] + p.pid, p.name))
  }

  /** The lines of the listing, as the loop iterates them. */
  function ListingLines(stdout: string): seq<string> {
    SplitOn(Strip(stdout), '\n')
  }

  /** Every line's process, in listing order, for the lines that parse. */
  function Parsed(lines: seq<string>): seq<Process>
    decreases |lines|
  {
    if lines == [] then []
    else match ParseLine(lines[0])
      case None => Parsed(lines[1..])
      case Some(p) => [p] + Parsed(lines[1..])
  }

  /** How many of the processes have an unprotected name. */
  function UnprotectedCount(ps: seq<Process>): nat
    decreases |ps|
  {
    if ps == [] then 0
    else (if IsProtected(ps[0].name) then 0 else 1) + UnprotectedCount(ps[1..])
  }

  /** The processes the sweep tries to kill, in listing order: every line
      that parses into pid and name, minus the protected names. Being a
      subsequence of the parsed processes, free of protected names and as
      long as the unprotected ones are many, it can be nothing else. */
  function Candidates(lines: seq<string>): (r: seq<Process>)
    ensures forall q :: q in r ==> !IsProtected(q.name)
    ensures forall q :: q in r ==> exists l :: l in lines && ParseLine(l) == Some(q)
    ensures forall l :: l in lines && ParseLine(l).Some? && !IsProtected(ParseLine(l).value.name) ==> ParseLine(l).value in r
    ensures SubsequenceOf(r, Parsed(lines))
    ensures |r| == UnprotectedCount(Parsed(lines))
    decreases |lines|
  {
    if lines == [] then []
    else
      var rest := Candidates(lines[1..]);
      assert forall l :: l in lines[1..] ==> l in lines;
      assert forall l :: l in lines ==> l == lines[0] || l in lines[1..];
      match ParseLine(lines[0])
      case None => rest
      case Some(p) =>
        assert lines[0] in lines;
        var ps := Parsed(lines);
        assert ps[1..] == Parsed(lines[1..]);
        if IsProtected(p.name) then
          SubsequencePrepend(rest, Parsed(lines[1..]), p);
          rest
        else
          assert forall q :: q in [p] + rest ==> q == p || q in rest;
          assert ([p] + rest)[1..] == rest;
          [p] + rest
  }

  /** What the kill loop did: kills sent, kills accepted, and the exception
      that ended it early, if any. */
  datatype Sweep = Sweep(signalled: seq<Process>, killed: seq<Process>, raised: Option<string>)

  /** The kill loop over the candidates: kill each in order, record the
      accepted ones, skip refused ones, stop at the first exception. */
  function KillEach(cands: seq<Process>, kill: string -> KillOutcome): (s: Sweep)
    ensures |s.signalled| <= |cands| && s.signalled == cands[..|s.signalled|]
    ensures s.raised.None? <==> forall i :: 0 <= i < |cands| ==> !kill(cands[i].pid).KillRaised?
    ensures s.raised.None? ==> s.signalled == cands
    ensures s.raised.Some? ==> s.signalled != [] && kill(s.signalled[|s.signalled| - 1].pid).KillRaised?
    ensures forall i :: 0 <= i < |s.signalled| - 1 ==> !kill(s.signalled[i].pid).KillRaised?
    decreases |cands|
  {
    if cands == [] then Sweep([], [], None)
    else
      var p := cands[0];
      if kill(p.pid).KillRaised? then
        assert cands[..1] == [p];
        Sweep([p], [], Some(kill(p.pid).error))
      else
        var rest := KillEach(cands[1..], kill);
        SweepExtends(cands, kill, rest);
        Sweep([p] + rest.signalled, if kill(p.pid) == Signalled then [p] + rest.killed else rest.killed, rest.raised)
  }

  /** The sweep of the tail, once the first kill did not raise, extends to
      the sweep of the whole list. */
  lemma SweepExtends(cands: seq<Process>, kill: string -> KillOutcome, rest: Sweep)
    requires cands != [] && !kill(cands[0].pid).KillRaised?
    requires |rest.signalled| <= |cands| - 1 && rest.signalled == cands[1..][..|rest.signalled|]
    requires rest.raised.None? <==> forall i :: 0 <= i < |cands| - 1 ==> !kill(cands[1..][i].pid).KillRaised?
    requires rest.raised.None? ==> rest.signalled == cands[1..]
    requires rest.raised.Some? ==> rest.signalled != [] && kill(rest.signalled[|rest.signalled| - 1].pid).KillRaised?
    requires forall i :: 0 <= i < |rest.signalled| - 1 ==> !kill(rest.signalled[i].pid).KillRaised?
    ensures var sig := [cands[0]] + rest.signalled;
            && |sig| <= |cands| && sig == cands[..|sig|]
            && (rest.raised.None? <==> forall i :: 0 <= i < |cands| ==> !kill(cands[i].pid).KillRaised?)
            && (rest.raised.None? ==> sig == cands)
            && (rest.raised.Some? ==> kill(sig[|sig| - 1].pid).KillRaised?)
            && (forall i :: 0 <= i < |sig| - 1 ==> !kill(sig[i].pid).KillRaised?)
  {
    var sig := [cands[0]] + rest.signalled;
    assert forall i :: 1 <= i < |cands| ==> cands[i] == cands[1..][i - 1];
    assert forall i :: 1 <= i < |sig| ==> sig[i] == rest.signalled[i - 1];
    assert cands == [cands[0]] + cands[1..];
  }

  /** How many of the processes would accept their kill. */
  function AcceptedCount(ps: seq<Process>, kill: string -> KillOutcome): nat
    decreases |ps|
  {
    if ps == [] then 0
    else (if kill(ps[0].pid) == Signalled then 1 else 0) + AcceptedCount(ps[1..], kill)
  }

  /** The kills a sweep records are exactly the accepted ones among those
      sent, in the order they were sent, one record per accepted kill. */
  lemma {:induction false} KillEachRecordsAccepted(cands: seq<Process>, kill: string -> KillOutcome)
    ensures var s := KillEach(cands, kill);
            && SubsequenceOf(s.killed, s.signalled)
            && (forall q :: q in s.killed ==> kill(q.pid) == Signalled)
            && (forall q :: q in s.signalled && kill(q.pid) == Signalled ==> q in s.killed)
            && |s.killed| == AcceptedCount(s.signalled, kill)
    decreases |cands|
  {
    KillEachCountsAccepted(cands, kill);
    if cands != [] {
      var p := cands[0];
      var s := KillEach(cands, kill);
      if !kill(p.pid).KillRaised? {
        var rest := KillEach(cands[1..], kill);
        KillEachRecordsAccepted(cands[1..], kill);
        assert s.signalled == [p] + rest.signalled;
        assert forall q :: q in s.signalled ==> q == p || q in rest.signalled;
        if kill(p.pid) == Signalled {
          assert s.killed == [p] + rest.killed;
          assert s.killed[1..] == rest.killed && s.signalled[1..] == rest.signalled;
        } else {
          assert s.killed == rest.killed;
          SubsequencePrepend(rest.killed, rest.signalled, p);
        }
      }
    }
  }

  /** A sweep records one kill per accepted kill among those it sent. */
  lemma {:induction false} KillEachCountsAccepted(cands: seq<Process>, kill: string -> KillOutcome)
    ensures var s := KillEach(cands, kill);
            |s.killed| == AcceptedCount(s.signalled, kill)
    decreases |cands|
  {
    if cands != [] && !kill(cands[0].pid).KillRaised? {
      var s := KillEach(cands, kill);
      var rest := KillEach(cands[1..], kill);
      KillEachCountsAccepted(cands[1..], kill);
      assert s.signalled[1..] == rest.signalled;
    }
  }

  /** `kill_high_cpu_processes`. No listing (an exception, or nothing but
      whitespace) fails. Otherwise the candidates are killed in listing
      order; the sweep succeeds, however few were killed, unless a kill
      raised. Whatever happens, no protected process is ever signalled, and
      the reported kills are exactly the accepted ones, in listing order. */
  function KillHighCpuProcesses(listing: ProcessListing, kill: string -> KillOutcome): (r: StepResult)
    ensures r.kind.ProcessKill?
    ensures forall q :: q in r.kind.signalled ==> !IsProtected(q.name)
    ensures r.success <==> listing.Listed? && Strip(listing.stdout) != ""
                           && forall q :: q in Candidates(ListingLines(listing.stdout)) ==> !kill(q.pid).KillRaised?
    ensures r.success ==> r.kind.signalled == Candidates(ListingLines(listing.stdout))
    ensures r.success ==> SubsequenceOf(r.kind.killed, r.kind.signalled)
    ensures r.success ==> forall q :: q in r.kind.signalled ==> (q in r.kind.killed <==> kill(q.pid) == Signalled)
    ensures r.success ==> |r.kind.killed| == AcceptedCount(r.kind.signalled, kill)
    ensures !r.success ==> r.kind.killed == []
  {
    match listing
    case ListingRaised(e) => StepResult(false, "Error killing processes: " + e, ProcessKill([], []))
    case Listed(out) =>
      if Strip(out) == "" then StepResult(false, "No high CPU processes found", ProcessKill([], []))
      else
        var cands := Candidates(ListingLines(out));
        var s := KillEach(cands, kill);
        KillEachRecordsAccepted(cands, kill);
        assert forall q :: q in s.signalled ==> q in cands;
        SubsequenceMembers(s.killed, s.signalled);
        match s.raised
        case Some(e) => StepResult(false, "Error killing processes: " + e, ProcessKill(s.signalled, []))
        case None =>
          StepResult(true, "Killed " + NatToString(|s.killed|) + " high CPU processes", ProcessKill(s.signalled, s.killed))
  }

  /** A process named like init, a kernel thread or systemd is never sent a
      kill, whatever the listing and whatever kill would answer. */
  lemma ProtectedNeverSignalled(listing: ProcessListing, kill: string -> KillOutcome, p: Process)
    requires IsProtected(p.name)
    ensures p !in KillHighCpuProcesses(listing, kill).kind.signalled
  {
  }

  /** Case does not help a process escape the filter. */
  lemma ProtectionIgnoresCase(name: string)
    ensures IsProtected(Lower(name)) <==> IsProtected(name)
  {
    LowerIdempotent(name);
  }

  // ---------------------------------------------------------------------
  // clear_disk_space

  /** The temp-file cleanup commands, in the order they are run. */
  const TempCommands: seq<string> := [
    "sudo rm -rf /tmp/*",
    "sudo journalctl --vacuum-time=3d",
    "sudo apt-get autoremove -y",
    "sudo apt-get autoclean"]

  /** What running one cleanup command came to: exit 0, a non-zero exit
      (caught and skipped), or any other exception (which aborts). */
  datatype CommandOutcome = CommandOk | CommandFailed | CommandRaised(error: string)

  /** The cleanup command loop: the report lines of completed commands, and
      the exception that ended it early, if any. */
  datatype CleanupRun = CleanupRun(taken: seq<string>, raised: Option<string>)

  /** The report line of each command, in command order. */
  function ExecutedLines(cmds: seq<string>): (ls: seq<string>)
    ensures |ls| == |cmds|
  {
    seq(|cmds|, i requires 0 <= i < |cmds| => "Executed: " + cmds[i])
  }

  /** How many of the commands exit 0. */
  function OkCount(cmds: seq<string>, run: string -> CommandOutcome): nat
    decreases |cmds|
  {
    if cmds == [] then 0
    else (if run(cmds[0]) == CommandOk then 1 else 0) + OkCount(cmds[1..], run)
  }

  /** Report lines come in command order, one per command that exited 0. */
  function RunCommands(cmds: seq<string>, run: string -> CommandOutcome): (c: CleanupRun)
    ensures c.raised.None? <==> forall i :: 0 <= i < |cmds| ==> !run(cmds[i]).CommandRaised?
    ensures c.raised.None? ==> forall i :: 0 <= i < |cmds| && run(cmds[i]) == CommandOk ==> "Executed: " + cmds[i] in c.taken
    ensures forall t :: t in c.taken ==> exists i :: 0 <= i < |cmds| && run(cmds[i]) == CommandOk && t == "Executed: " + cmds[i]
    ensures SubsequenceOf(c.taken, ExecutedLines(cmds))
    ensures c.raised.None? ==> |c.taken| == OkCount(cmds, run)
    ensures |c.taken| <= |cmds|
    decreases |cmds|
  {
    if cmds == [] then CleanupRun([], None)
    else
      assert ExecutedLines(cmds)[1..] == ExecutedLines(cmds[1..]);
      match run(cmds[0])
      case CommandRaised(e) => CleanupRun([], Some(e))
      case CommandFailed =>
        var rest := RunCommands(cmds[1..], run);
        assert forall i :: 1 <= i < |cmds| ==> cmds[i] == cmds[1..][i - 1];
        SubsequencePrepend(rest.taken, ExecutedLines(cmds[1..]), "Executed: " + cmds[0]);
        rest
      case CommandOk =>
        var rest := RunCommands(cmds[1..], run);
        assert forall i :: 1 <= i < |cmds| ==> cmds[i] == cmds[1..][i - 1];
        var taken := ["Executed: " + cmds[0]] + rest.taken;
        assert taken[1..] == rest.taken;
        CleanupRun(taken, rest.raised)
  }

  const DockerCleanupNote: string := "Docker cleanup completed"

  /** The Docker note is never mistaken for a command's report line. */
  lemma NoteIsNoReportLine(cmds: seq<string>, run: string -> CommandOutcome)
    ensures DockerCleanupNote !in RunCommands(cmds, run).taken
  {
    var c := RunCommands(cmds, run);
    forall t | t in c.taken
      ensures t != DockerCleanupNote
    {
      var i :| 0 <= i < |cmds| && run(cmds[i]) == CommandOk && t == "Executed: " + cmds[i];
      assert t[0] == 'E' != DockerCleanupNote[0];
    }
  }

  /** `clear_disk_space`: Docker pruning (when a client exists; all three
      prunes must succeed to be reported), then the four temp-file commands.
      It reports success even when no sub-operation completed; only an
      unexpected exception from a command makes it fail. The report lists
      the completed sub-operations only. */
  function ClearDiskSpace(docker: bool, pruneOk: bool, run: string -> CommandOutcome): (r: StepResult)
    ensures r.kind.DiskCleanup?
    ensures r.success <==> forall i :: 0 <= i < |TempCommands| ==> !run(TempCommands[i]).CommandRaised?
    ensures r.success ==> (DockerCleanupNote in r.kind.actionsTaken <==> docker && pruneOk)
    ensures r.success ==> forall i :: 0 <= i < |TempCommands| ==>
              ("Executed: " + TempCommands[i] in r.kind.actionsTaken <== run(TempCommands[i]) == CommandOk)
    ensures forall t :: t in r.kind.actionsTaken && t != DockerCleanupNote ==>
              exists i :: 0 <= i < |TempCommands| && run(TempCommands[i]) == CommandOk && t == "Executed: " + TempCommands[i]
    ensures r.success ==> r.kind.actionsTaken == (if docker && pruneOk then [DockerCleanupNote] else [])
                                                 + RunCommands(TempCommands, run).taken
    ensures |r.kind.actionsTaken| <= 1 + |TempCommands|
  {
    var docked := if docker && pruneOk then [DockerCleanupNote] else [];
    var c := RunCommands(TempCommands, run);
    NoteIsNoReportLine(TempCommands, run);
    match c.raised
    case Some(e) => StepResult(false, "Disk cleanup failed: " + e, DiskCleanup([]))
    case None => StepResult(true, "Disk cleanup completed", DiskCleanup(docked + c.taken))
  }

  /** The cleanup reports success even when every sub-operation failed, and
      then lists nothing as done. */
  lemma DiskCleanupSucceedsWhenNothingRan(docker: bool, pruneOk: bool, run: string -> CommandOutcome)
    requires !(docker && pruneOk)
    requires forall c :: run(c) == CommandFailed
    ensures ClearDiskSpace(docker, pruneOk, run).success
    ensures ClearDiskSpace(docker, pruneOk, run).kind.actionsTaken == []
  {
    var c := RunCommands(TempCommands, run);
    assert c.raised.None?;
  }

  // ---------------------------------------------------------------------
  // execute_remediation

  /** The remediation safety gate: a truthy `requires_human_intervention`
      (missing counts as True) or a confidence of exactly "LOW" (missing
      counts as "LOW") means a human must act. */
  predicate NeedsHuman(v: Verdict) {
    Truthy(v.requiresHuman.GetOr(JBool(true))) || v.confidence.GetOr(JStr("LOW")) == JStr("LOW")
  }

  /** The alert class remediation dispatches on; `None` is "UNKNOWN", the
      value read when no alert is attached to the verdict. */
  function AlertKindOf(v: Verdict): Option<AlertKind> {
    if v.alertData.Some? then Some(v.alertData.value.kind) else None
  }

  /** What the collaborators of one remediation come to. */
  datatype RemediationEnv = RemediationEnv(
    containers: Result<seq<string>>,       // containers.list(): running container names, or its exception
    restart: string -> ContainerOutcome,   // restart + reload of one container
    processes: ProcessListing,             // the high-CPU listing
    kill: string -> KillOutcome,           // kill -9 of one pid
    pruneOk: bool,                         // all three Docker prunes succeeded
    run: string -> CommandOutcome)         // one temp-file cleanup command

  /** `execute_remediation`'s result: refused by the gate, or the ordered
      sub-results of the primitives it ran. */
  datatype RemediationResult = Refused | Executed(steps: seq<StepResult>) {
    /** Overall success: some sub-result succeeded. */
    predicate Success() {
      Executed? && exists i :: 0 <= i < |steps| && steps[i].success
    }

    /** The `message` key; only a refusal carries one. */
    function Message(): Option<string> {
      if Refused? then Some("Remediation requires human intervention") else None
    }
  }

  /** The running containers as remediation sees them: none without a
      Docker client. */
  function Running(docker: bool, env: RemediationEnv): seq<string> {
    if docker && env.containers.Ok? then env.containers.value else []
  }

  /** One restart per name, in order. */
  function RestartAll(docker: bool, names: seq<string>, restart: string -> ContainerOutcome): (r: seq<StepResult>)
    ensures |r| == |names|
    ensures forall i :: 0 <= i < |names| ==> r[i] == RestartContainer(docker, names[i], restart(names[i]))
  {
    seq(|names|, i requires 0 <= i < |names| => RestartContainer(docker, names[i], restart(names[i])))
  }

  /** Restart the first `cap` running containers, in list order. Listing
      the containers is not guarded: its exception escapes. */
  function RestartFirst(docker: bool, env: RemediationEnv, cap: nat): (r: Result<seq<StepResult>>)
    ensures r.Err? <==> docker && env.containers.Err?
    ensures r.Ok? ==> r.value == RestartAll(docker, Take(Running(docker, env), cap), env.restart)
    ensures r.Ok? ==> var names := Running(docker, env);
              && |r.value| == (if cap < |names| then cap else |names|)
              && forall i :: 0 <= i < |r.value| ==> r.value[i] == RestartContainer(docker, names[i], env.restart(names[i]))
  {
    if !docker then Ok([])
    else
      var names :- env.containers;
      Ok(RestartAll(docker, Take(names, cap), env.restart))
  }

  /** `execute_remediation`. Below the gate nothing is run. Otherwise:
      CPU restarts the first three running containers in list order and then
      always runs one kill sweep, last; memory restarts the first two and
      never kills; disk runs one cleanup; any other class runs nothing. The
      only exception that escapes is the one from listing containers. */
  function ExecuteRemediation(docker: bool, v: Verdict, env: RemediationEnv): (r: Result<RemediationResult>)
    ensures NeedsHuman(v) ==> r == Ok(Refused)
    ensures r.Err? <==> !NeedsHuman(v) && AlertKindOf(v) in {Some(CpuSpike), Some(MemorySpike)}
                        && docker && env.containers.Err?
    ensures r.Ok? && !NeedsHuman(v) ==> r.value.Executed?
    ensures r.Ok? && !NeedsHuman(v) && AlertKindOf(v) == Some(CpuSpike) ==>
              var steps, names := r.value.steps, Take(Running(docker, env), 3);
              && |steps| == |names| + 1
              && (forall i :: 0 <= i < |names| ==> steps[i] == RestartContainer(docker, names[i], env.restart(names[i])))
              && steps[|names|] == KillHighCpuProcesses(env.processes, env.kill)
    ensures r.Ok? && !NeedsHuman(v) && AlertKindOf(v) == Some(MemorySpike) ==>
              var steps, names := r.value.steps, Take(Running(docker, env), 2);
              && |steps| == |names|
              && (forall i :: 0 <= i < |names| ==> steps[i] == RestartContainer(docker, names[i], env.restart(names[i])))
    ensures r.Ok? && !NeedsHuman(v) && AlertKindOf(v) == Some(DiskSpike) ==>
              r.value.steps == [ClearDiskSpace(docker, env.pruneOk, env.run)]
    ensures !NeedsHuman(v) && AlertKindOf(v) !in {Some(CpuSpike), Some(MemorySpike), Some(DiskSpike)} ==>
              r == Ok(Executed([]))
  {
    if NeedsHuman(v) then Ok(Refused)
    else
      match AlertKindOf(v)
      case Some(CpuSpike) =>
        var restarts :- RestartFirst(docker, env, 3);
        Ok(Executed(restarts + [KillHighCpuProcesses(env.processes, env.kill)]))
      case Some(MemorySpike) =>
        var restarts :- RestartFirst(docker, env, 2);
        Ok(Executed(restarts))
      case Some(DiskSpike) =>
        Ok(Executed([ClearDiskSpace(docker, env.pruneOk, env.run)]))
      case _ =>
        Ok(Executed([]))
  }

  /** The gate denies by default: a verdict missing either the human flag
      or the confidence is refused, and so is any low-confidence verdict. */
  lemma GateDeniesByDefault(v: Verdict, docker: bool, env: RemediationEnv)
    requires v.requiresHuman.None? || v.confidence.None? || v.confidence == Some(JStr("LOW"))
    ensures ExecuteRemediation(docker, v, env) == Ok(Refused)
    ensures !ExecuteRemediation(docker, v, env).value.Success()
  {
  }

  /** Overall success is "some sub-result succeeded": adding a successful
      step makes any run successful, and a run of failures is a failure. */
  lemma {:induction false} SuccessIsSomeStep(steps: seq<StepResult>)
    ensures Executed(steps).Success() <==> exists s :: s in steps && s.success
    ensures Executed([]).Success() == false
  {
    if exists s :: s in steps && s.success {
      var s :| s in steps && s.success;
      var i :| 0 <= i < |steps| && steps[i] == s;
      assert steps[i].success;
    }
  }

  /** Memory remediation never kills processes. */
  lemma MemoryNeverKills(docker: bool, v: Verdict, env: RemediationEnv)
    requires AlertKindOf(v) == Some(MemorySpike)
    requires !(docker && env.containers.Err?)
    ensures var r := ExecuteRemediation(docker, v, env).value;
            r.Executed? ==> forall s :: s in r.steps ==> s.kind.ContainerRestart?
  {
    var r := ExecuteRemediation(docker, v, env);
    if !NeedsHuman(v) {
      var names := Take(Running(docker, env), 2);
      assert forall s :: s in r.value.steps ==> exists i :: 0 <= i < |names| && s == r.value.steps[i];
    }
  }

  /** In a CPU remediation the kill sweep runs exactly once and last, even
      when a restart succeeded and even without Docker. */
  lemma CpuKillSweepAlwaysLast(docker: bool, v: Verdict, env: RemediationEnv)
    requires AlertKindOf(v) == Some(CpuSpike) && !NeedsHuman(v)
    requires !(docker && env.containers.Err?)
    ensures var steps := ExecuteRemediation(docker, v, env).value.steps;
            && steps != []
            && steps[|steps| - 1].kind.ProcessKill?
            && (forall i :: 0 <= i < |steps| - 1 ==> steps[i].kind.ContainerRestart?)
            && |steps| <= 4
  {
  }
}
